=== FILE: README.md ===
# SW Combine SDK client core, modelled in Dafny

This project models the decision logic at the core of a TypeScript client for the
Star Wars Combine web-services API. It does not model the I/O around that logic.
Five parts are modelled:

- **Error model** (`Errors.dfy`). This is the `SWCError` record. It has seven kinds: `auth`,
  `not_found`, `validation`, `rate_limit`, `server`, `network` and `unknown`. Each kind has a
  default for `retryable`, and an explicit flag overrides that default.
  `fromHttpResponse` classifies a status code and body. `fromNetworkError` builds the
  error for a failure with no response. `toUserFriendlyMessage` gives one sentence per kind.
- **Token manager** (`Tokens.dfy`). This is `TokenManager`, which holds one optional OAuth
  credential. It covers the expiry test and the refresh test (a five-minute buffer;
  both boundaries are inclusive), the one-hour lifetime given to a bare token, refresh
  orchestration and the storage hook. The clock is an integer `now` in milliseconds.
  The refresh callback is a pure function held in the state. Calls to the storage hook
  (`saveToken`, `loadToken`, `clearToken`) and to the callback come back as an effect log;
  the value `loadToken` resolves to is an argument.
- **HTTP client** (`Transport.dfy`). This covers the pure parts of `HttpClient`: the
  constructor defaults, `access_token` injection by the request interceptor, and the response
  interceptor. The response interceptor unwraps the `swcapi` envelope, tracks the
  `x-ratelimit-*` headers, turns failures into errors, and decides whether to retry.
  The request interceptor reads the client's token manager and keeps the manager a refresh
  leaves behind. The underlying transport is a function from the retry count to a response
  or a failure, and the client's configured `maxRetries` bounds the retries.
- **Method dispatch** (`BaseResource.dfy`). `BaseResource.request` maps a method name,
  matched without regard to case, to `get`, `post`, `put` or `delete`. It rejects every
  other name.
- **Resource request builders** (`ApiResource.dfy`, `CharacterResource.dfy`). These compute
  the HTTP call each endpoint makes: path, verb, body and query parameters. They also
  cover the `|| []` list fallback and `hasPermission`.

Shared helpers are in `Wrappers.dfy` (`Option` and `Result`), `Json.dfy` (JSON values and
JavaScript truthiness) and `Text.dfy`. `Text.dfy` holds ASCII case mapping, substring
search, and decimal formatting and parsing with a round-trip proof.

The implementation files `src/http/errors.ts`, `src/auth/TokenManager.ts`,
`src/http/HttpClient.ts` and `src/resources/BaseResource.ts` are not part of this model's
sources. Their behaviour is taken from their unit tests, which the table below cites.
The cited tests fix that behaviour. Where they leave a detail open, the model makes
a choice; the choices that shape a member's contract are listed under "Left out", each on a
line headed by that member's name.

## Model

| member | source | states |
|---|---|---|
| Errors.NewError | tests/unit/errors.test.ts:104-138 | network, server and rate_limit errors default to retryable, and the other kinds do not; an explicit `retryable` overrides the default |
| Errors.Classify | tests/unit/errors.test.ts:5-59 | 401/403 give auth; 404 gives not_found; 429, or a 400 whose body signals a rate limit, gives rate_limit; 422, or a 400 that does not, gives validation; 5xx gives server; never network (each as an if-and-only-if) |
| Errors.DeriveMessage | tests/unit/errors.test.ts:61-74 | the message is the first non-empty of `error_description`, `message` and a string `error`, and otherwise a non-empty fallback |
| Errors.FromHttpResponse | tests/unit/errors.test.ts:5-90 | keeps the status code, the request id and the raw body; `retryAfter` is copied from a numeric `retry_after` exactly when the kind is rate_limit; retryable exactly for server and rate_limit |
| Errors.FromNetworkError | tests/unit/errors.test.ts:93-102 | kind network, retryable, keeps the cause, and the message contains the cause's text |
| Errors.UserFriendlyMessage | tests/unit/errors.test.ts:158-197 | the sentence for each kind contains its keyword; for rate_limit with `retryAfter = n` it contains "n seconds" |
| ErrorsFacts.FriendlyMessagesDistinct | tests/unit/errors.test.ts:158-197 | two errors of different kinds never get the same user-facing sentence |
| ErrorsFacts.RetryableDefaults | tests/unit/errors.test.ts:104-138 | the retry default splits the seven kinds as documented, and an explicit `true` always wins |
| ErrorsFacts.AuthStatuses | tests/unit/errors.test.ts:6-16 | 401 and 403 give an auth error that keeps its status and is not retryable |
| ErrorsFacts.ServerStatuses | tests/unit/errors.test.ts:38-42 | every status of 500 or more gives a retryable server error |
| ErrorsFacts.RateLimitMessageOn400 | tests/unit/errors.test.ts:49-52 | a 400 whose `message` starts "Rate limit" is a rate_limit error |
| ErrorsFacts.MessagePriority | tests/unit/errors.test.ts:61-74 | `error_description` beats `message`, which beats `error`; a non-string `error_description` is skipped |
| ErrorsFacts.FirstPresent | tests/unit/errors.test.ts:61-74 | returns the first present candidate (every earlier one absent), and the fallback exactly when none is present |
| ErrorsFacts.MessageIsFirstPresent | tests/unit/errors.test.ts:61-74 | for every status and body, the error message is the first non-empty of `error_description`, `message` and a string `error`, else the fallback |
| Text.ParseInt | tests/unit/http-client.test.ts:163-185 | a header has a value exactly when it is an optional minus sign followed by decimal digits |
| Text.ParseFormat | tests/unit/http-client.test.ts:163-185 | parsing the decimal text of any integer gives back that integer |
| Tokens.Normalize | tests/unit/token-manager.test.ts:17-38 | a bare string becomes a credential with that access token, no refresh token, and an expiry 3 600 000 ms after `now`; a full credential is kept unchanged |
| Tokens.Create | tests/unit/token-manager.test.ts:16-39 | the constructor holds a credential exactly when it is given one, in normalised form, and starts with no refresh callback |
| Tokens.SetRefreshCallback | tests/unit/token-manager.test.ts:137-178 | the given callback becomes the one refresh uses; the credential and the storage setting are kept |
| Tokens.GetToken | tests/unit/token-manager.test.ts:196-209 | present exactly when a credential is held, with the held access and refresh tokens; with none, the manager is expired at every instant and never due for refresh, and with one it is expired exactly from the returned `expiresAt` on (which credential comes back after `setToken` and after a storage reload is pinned by `TokensFacts.SetThenGet` and `TokensFacts.StorageRoundTrip`) |
| Tokens.IsExpired | tests/unit/token-manager.test.ts:41-67 | always expired with no credential; not expired only while a credential is held and its expiry instant lies ahead |
| Tokens.ShouldRefresh | tests/unit/token-manager.test.ts:69-107 | due for refresh exactly when a credential is held and it will have expired five minutes (300 000 ms) from now |
| Tokens.HasRefreshToken | tests/unit/token-manager.test.ts:256-270 | true exactly when a credential is held whose refresh token is present and non-empty |
| Tokens.SetToken | tests/unit/token-manager.test.ts:180-201 | the normalised input replaces the credential; exactly that credential goes to `saveToken` when storage is configured, and nothing else happens otherwise |
| Tokens.Clear | tests/unit/token-manager.test.ts:203-220 | the credential is dropped, and `clearToken` is called exactly when storage is configured |
| Tokens.LoadFromStorage | tests/unit/token-manager.test.ts:222-254 | with storage, `loadToken` is called once and a non-null credential it yields is adopted; a null one, or no storage, leaves the manager unchanged, and without storage nothing is called |
| Tokens.Refresh | tests/unit/token-manager.test.ts:137-178 | an auth error when no callback is set, or when there is no refresh token; otherwise it calls the callback once with the refresh token and replaces the credential with the result, and a callback failure propagates unchanged |
| Tokens.GetAccessToken | tests/unit/token-manager.test.ts:109-135 | null with no credential and no change; the held access token, with no calls and no change, when no refresh is due or possible; after a due refresh, the new access token, with the manager holding the callback's credential and everything else kept, and the effects exactly one callback call followed by `saveToken` of the new credential when storage is configured |
| TokensFacts.BareTokenLifetime | tests/unit/token-manager.test.ts:17-50 | a bare token set at t0 is expired from t0 + 3 600 000 on, is due for refresh from t0 + 3 300 000 on, and has no refresh token |
| TokensFacts.NoTokenWindows | tests/unit/token-manager.test.ts:41-73 | with no credential, isExpired is true and shouldRefresh and hasRefreshToken are false |
| TokensFacts.Boundaries | tests/unit/token-manager.test.ts:60-106 | the expiry instant counts as expired and one millisecond before does not; exactly five minutes before expiry counts as due for refresh and one millisecond earlier does not |
| TokensFacts.WindowsAreMonotone | tests/unit/token-manager.test.ts:69-107 | expiry and refresh-due stay true as time moves forward, and an expired held token is always due for refresh |
| TokensFacts.SetThenGet | tests/unit/token-manager.test.ts:196-200 | `getToken` after `setToken` returns the normalised input; for a string, the access token is that string |
| TokensFacts.ClearForgets | tests/unit/token-manager.test.ts:204-209 | after `clear` there is no token: it counts as expired, is not due for refresh, and `getAccessToken` gives null |
| TokensFacts.RefreshReplaces | tests/unit/token-manager.test.ts:159-177 | a successful refresh had a callback and a refresh token, asked the callback once, and holds the callback's result |
| TokensFacts.RefreshRefusal | tests/unit/token-manager.test.ts:138-157 | a refresh is refused exactly when there is no callback or no refresh token, and the refusal is an auth error |
| TokensFacts.FreshTokenNeedsNoRefresh | tests/unit/token-manager.test.ts:115-118 | outside the refresh window the access token is returned with no calls and no change of state |
| TokensFacts.StorageRoundTrip | tests/unit/token-manager.test.ts:180-254 | the credential `setToken` hands to `saveToken`, loaded back after a `clear`, is exactly what `getToken` returned before the clear |
| TokensFacts.LoadKeepsWhenNothingStored | tests/unit/token-manager.test.ts:239-253 | loading a null value, or loading without storage, keeps the held credential |
| TokensFacts.RefreshUsesCallback | tests/unit/token-manager.test.ts:159-177 | after `setRefreshCallback(f)`, a refresh holds `f`'s credential when `f` succeeds and fails with `f`'s reason when it fails |
| Transport.Configure | tests/unit/http-client.test.ts:53-72 | the base URL defaults to `https://www.swcombine.com/ws/v2.0/` and the timeout to 30000; given values are used as they are |
| Transport.NewClient | tests/unit/http-client.test.ts:187-191 | a new client has the configured settings and no rate-limit snapshot |
| Transport.SetTokenManager | tests/unit/http-client.test.ts:296-303 | installs the manager the request interceptor reads, keeping the snapshot, the settings and the rate-limit callback registration |
| Transport.SetRateLimitCallback | tests/unit/http-client.test.ts:305-312 | registers the callback and keeps the snapshot, the token manager and the settings |
| Transport.GetRateLimitInfo | tests/unit/http-client.test.ts:187-206 | after any response, the reported snapshot is the one the response's headers announce, or, when they announce none, the one reported before |
| Transport.InjectToken | tests/unit/http-client.test.ts:82-121 | `access_token` is set to a non-empty token; parameters are created when absent; every other parameter is kept unchanged |
| Transport.PrepareRequest | tests/unit/http-client.test.ts:82-121 | with no client manager, nothing is added and nothing changes; with one, a token failure propagates, the client keeps the manager `getAccessToken` leaves behind, `access_token` is present exactly when it yields a non-empty token, and every other parameter keeps its key and value |
| Transport.Inspect | tests/unit/http-client.test.ts:124-159 | sorts a body into no envelope, a single-key envelope (and its key and value), or a multi-key envelope |
| Transport.Unwrap | tests/unit/http-client.test.ts:124-159 | one inner key gives its value; any other inner object gives that object; a body without `swcapi` passes through |
| Transport.ParseRateLimit | tests/unit/http-client.test.ts:162-185 | there is a snapshot exactly when the limit, remaining and reset headers parse as integers; it holds those values, and `resetTime` is the raw header string when present |
| Transport.OnFulfilled | tests/unit/http-client.test.ts:162-206 | the body is unwrapped; a snapshot in the headers replaces the stored one and is passed once to a registered callback; otherwise nothing changes |
| Transport.ToError | tests/unit/http-client.test.ts:209-251 | an HTTP failure is classified from its status and body, keeping the status; no response gives a retryable network error |
| Transport.ShouldRetry | tests/unit/http-client.test.ts:209-251 | retry exactly when the error is retryable and the budget of remaining retries is not used up |
| Transport.OnRejected | tests/unit/http-client.test.ts:209-251 | it retries, with the count one higher, exactly when the error is retryable and the count is below `maxRetries`; otherwise it rejects with the classified error |
| Transport.Execute | tests/unit/http-client.test.ts:209-251 | a request takes at least one attempt and at most one plus the remaining retries; every attempt but the last failed in a way the policy retries; the outcome is the last attempt's response, or its classified failure, which the policy declines to retry |
| Transport.Send | tests/unit/http-client.test.ts:209-251 | a request through a client starts at retry count zero and takes at most its configured `maxRetries` plus one attempts; every attempt but the last was retried, and the outcome is the last attempt's response or its classified, declined failure |
| TransportFacts.UnwrapSingle | tests/unit/http-client.test.ts:125-135 | `{swcapi: {k: v}}` unwraps to `v` for every key and value |
| TransportFacts.UnwrapMulti | tests/unit/http-client.test.ts:137-147 | `{swcapi: m}` unwraps to `m` whenever `m` does not have exactly one key |
| TransportFacts.UnwrapPassThrough | tests/unit/http-client.test.ts:149-159 | a body without an object under `swcapi` is returned unchanged |
| TransportFacts.RateLimitRoundTrip | tests/unit/http-client.test.ts:163-185 | every snapshot, written as headers and parsed back, is recovered exactly |
| TransportFacts.RateLimitBookkeeping | tests/unit/http-client.test.ts:187-206 | `getRateLimitInfo` is null before any rate-limited response, holds the parsed snapshot after one, and keeps it across a response without the headers |
| TransportFacts.LateCallbackNotified | tests/unit/http-client.test.ts:305-312 | a callback registered with `setRateLimitCallback` after construction is passed the next announced snapshot exactly once, and that snapshot is stored |
| TransportFacts.NonRetryableRejectsAtOnce | tests/unit/http-client.test.ts:210-231 | a failure the policy does not retry rejects after one attempt with the classified error |
| TransportFacts.NotFoundIsFinal | tests/unit/http-client.test.ts:210-231 | a 404 rejects after one attempt as not_found with status 404 |
| TransportFacts.NetworkFailureExhaustsBudget | tests/unit/http-client.test.ts:233-251 | when no response ever arrives, the request takes one attempt plus one per remaining retry, then rejects as a network error |
| TransportFacts.ConfiguredRetries | tests/unit/http-client.test.ts:233-251 | with no response ever arriving, a client made with `maxRetries = n` sends n + 1 times (4 with the default) and rejects as a network error |
| TransportFacts.FreshTokenIsInjected | tests/unit/http-client.test.ts:83-121 | a client whose manager holds a fresh non-empty token sends it as `params.access_token`, whether or not params were given, and is left unchanged |
| TransportFacts.NoTokenNoParam | tests/unit/http-client.test.ts:93-110 | no `access_token` is added by a client without a manager, or whose manager holds no token |
| TransportFacts.LaterManagerIsUsed | tests/unit/http-client.test.ts:296-303 | after `setTokenManager(m)`, the next request carries `m`'s fresh token |
| TransportFacts.RefreshIsKept | tests/unit/token-manager.test.ts:109-135 | a refresh made while preparing a request stays with the client: that request carries the renewed token after one callback call, and the next carries it again with no further call |
| BaseResource.ParseVerb | tests/unit/base-resource.test.ts:62-69 | a name is accepted exactly when its upper-case form is GET, POST, PUT or DELETE |
| BaseResource.Call | tests/unit/base-resource.test.ts:13-51 | GET and DELETE take only the path; POST and PUT also take the data |
| BaseResource.Request | tests/unit/base-resource.test.ts:13-69 | the four verbs, in any letter case, dispatch to their calls; any other name fails with "Unsupported HTTP method: " followed by the name |
| BaseResourceFacts.CaseInsensitive | tests/unit/base-resource.test.ts:62-69 | two names that are equal up to case give the same call, or are both rejected |
| BaseResourceFacts.KnownVerbs | tests/unit/base-resource.test.ts:13-51 | `GET`, `get`, `POST`, `PUT` and `DELETE` dispatch to the expected calls |
| BaseResourceFacts.PatchRejected | tests/unit/base-resource.test.ts:53-60 | `PATCH` fails with "Unsupported HTTP method: PATCH" |
| ApiResource.Route | src/resources/ApiResource.ts:54-96 | every utility endpoint is a GET of its fixed path, with no body and no parameters |
| ApiResource.TimeBody | src/resources/ApiResource.ts:114-121 | `cgt` is in the body exactly when it is non-empty, and `time` exactly when it is defined; nothing else is |
| ApiResource.Time | src/resources/ApiResource.ts:111-125 | a POST to `/api/time` with the conversion body exactly when a conversion is asked for, and otherwise a GET with no body |
| ApiResourceFacts.RoutesMatchDispatch | src/resources/ApiResource.ts:54-96 | every utility endpoint's call is what `request` makes of `GET` on its path |
| ApiResourceFacts.TimeMatchesDispatch | src/resources/ApiResource.ts:111-125 | the `time` call is what `request` makes of `POST` with the conversion body when a conversion is asked for, and of `GET` otherwise |
| ApiResourceFacts.CurrentTimeUsesGet | src/resources/ApiResource.ts:112-124 | no options, `{}`, or only an empty `cgt` give GET `/api/time` |
| ApiResourceFacts.ConversionBodyRoundTrip | src/resources/ApiResource.ts:114-121 | reading a conversion body back gives the fields that were given, with an empty `cgt` read as not given |
| ApiResourceFacts.ZeroTimeConverts | src/resources/ApiResource.ts:112-121 | `time: 0` gives POST with body exactly `{time: 0}` |
| ApiResourceFacts.BothFieldsSent | src/resources/ApiResource.ts:114-120 | with both fields given, the body is exactly `{cgt, time}` |
| CharacterResource.NumberOr | src/resources/CharacterResource.ts:57-60 | an absent or zero value falls back to the default, and any other value is kept |
| CharacterResource.Pagination | src/resources/CharacterResource.ts:57-60 | exactly `start_index` and `item_count`, each defaulting (1 and 50) when absent or zero |
| CharacterResource.ListOrEmpty | src/resources/CharacterResource.ts:61-63 | a truthy field value is returned, anything else gives `[]`, and a null response fails |
| CharacterResource.ListMessagesCall | src/resources/CharacterResource.ts:56-61 | GET `/character/{uid}/messages/{mode}` with the pagination parameters |
| CharacterResource.CreateMessageCall | src/resources/CharacterResource.ts:94-98 | PUT `/character/{uid}/messages/sent` with body exactly `{receivers, communication}` |
| CharacterResource.FactionParams | src/resources/CharacterResource.ts:138-141 | `faction_id` is sent exactly when it is defined, zero included, and nothing else is |
| CharacterResource.GetPrivilegeCall | src/resources/CharacterResource.ts:132-147 | GET of the privilege path with the faction parameters |
| CharacterResource.PrivilegeBody | src/resources/CharacterResource.ts:164-168 | `{revoke: 'true'}` exactly when `revoke` is true, and an empty body otherwise |
| CharacterResource.UpdatePrivilegeCall | src/resources/CharacterResource.ts:157-181 | POST of the privilege path with the revoke body and the faction parameters |
| CharacterResource.CreditsBody | src/resources/CharacterResource.ts:208-217 | always `amount`; `recipient` and `reason` exactly when non-empty; no other fields |
| CharacterResource.UpdateCreditsCall | src/resources/CharacterResource.ts:202-220 | POST `/character/{uid}/credits` with the credits body and no parameters |
| CharacterResource.CreditlogCall | src/resources/CharacterResource.ts:242-250 | GET `/character/{uid}/creditlog` with the pagination defaults, plus `start_id` exactly when it is defined |
| CharacterResource.PermissionsCall | src/resources/CharacterResource.ts:263-265 | GET `/character/{uid}/permissions` |
| CharacterResourceFacts.PermissionsMatchDispatch | src/resources/CharacterResource.ts:263-265 | the `permissions.list` call is what `request` makes of `GET` on the permissions path |
| CharacterResource.HasPermission | src/resources/CharacterResource.ts:331-339 | a failed fetch gives false; for a fetched list, true exactly when the list contains the name |
| CharacterResourceFacts.PaginationDefaults | src/resources/CharacterResource.ts:57-60 | absent and zero values both give 1 and 50, and non-zero values are sent as given |
| CharacterResourceFacts.ListFallback | src/resources/CharacterResource.ts:250-252 | a list under the key (`message` or `creditlog`) is returned as it is, and a missing key gives `[]` |
| CharacterResourceFacts.CreditsBodyRoundTrip | src/resources/CharacterResource.ts:208-219 | reading the credits body back recovers the transfer, with empty strings read as absent |
| CharacterResourceFacts.ZeroFactionIsSent | src/resources/CharacterResource.ts:138-141 | `faction_id: 0` is sent on both privilege calls, and an undefined one is not |
| CharacterResourceFacts.GrantAndRevoke | src/resources/CharacterResource.ts:164-168 | an undefined or false `revoke` sends `{}`, and a true one sends `{revoke: 'true'}` |
| CharacterResourceFacts.MessageBuilderMatchesDispatch | src/resources/CharacterResource.ts:94-98 | the call built for `messages.create` is what `request` makes of `PUT` on the sent-messages path |
| CharacterResourceFacts.CreditsBuilderMatchesDispatch | src/resources/CharacterResource.ts:202-220 | the call built for `credits.update` is what `request` makes of `POST` on the credits path |
| CharacterResourceFacts.ListedIsGranted | src/resources/CharacterResource.ts:331-339 | a fetched list grants a name exactly when some position of the list holds it |
| CharacterResourceFacts.GrantsSurviveExtension | src/resources/CharacterResource.ts:331-339 | a grant from a fetched list survives any entries added before or after it |
| CharacterResourceFacts.StringGrantsSubstring | src/resources/CharacterResource.ts:331-339 | a fetched string grants every name it contains |

## Left out

- The axios instance, the registration of the interceptors, real network calls and timeouts are I/O plumbing. Only the values the interceptors compute are modelled.
- Retry delays and backoff are left out: they are timing only. `Transport.Execute` models the retry count and the decision to retry, not the waiting.
- Promises, `async`, and concurrent refreshes that race each other are left out. Each operation is one atomic transition.
- `isSWCError`, the error's `name` and `instanceof Error` (tests/unit/errors.test.ts:141-156, 200-210) are JavaScript runtime-type checks. They have no counterpart in a closed datatype.
- Errors.DeriveMessage: only non-empty string values of `error_description`, `message` and `error` are used. The fallback sentence ("Request failed with status N") is this model's own wording, because the tests do not pin it.
- Errors.Classify: rate-limit phrases are matched after ASCII lower-casing. Full Unicode case folding is not modelled.
- Errors.Classify: a 422 is validation whatever its body says; only a 400 is checked for a rate-limit signal. A 422 whose body signals a rate limit could also be read as not validation; the tests pin only a 422 with an empty body.
- Errors.FromHttpResponse: `retryAfter` is taken from `retry_after` only when it is a JSON number; a string such as `"60"` is dropped.
- Errors.FromHttpResponse: the transport passes no request id when it converts a failure. Where the client would read one from is not pinned by the tests.
- Errors.FromNetworkError: the cause is given by its message text, not by the exception object. The "Network error: " prefix is this model's own wording; the tests only require the cause's text to appear.
- Errors.UserFriendlyMessage: the sentences are this model's own wording around the keyword each test requires ("Authentication", "Rate limit", "n seconds", "not found", "Invalid", "server error", "Network", "unexpected").
- Tokens.Create: the constructor normalises its input without calling `saveToken`, because the tests do not pin a save on construction.
- Tokens.Refresh: the callback's credential replaces the held one wholesale, so a refresh result without a refresh token drops the held one; keeping it is left to the callback.
- Tokens.Refresh: a callback failure surfaces as `CallbackFailed(reason)`, carrying the callback's reason unchanged; it is not turned into an `SWCError`, since the rejection propagates unmodified.
- Tokens.GetAccessToken: a failing refresh surfaces the same `CallbackFailed(reason)` or refusal as `Tokens.Refresh`.
- Tokens.SetToken: a storage hook that throws is not modelled; the `saveToken` call is only logged.
- Tokens.Clear: a storage hook that throws is not modelled; the `clearToken` call is only logged.
- Tokens.Refresh: a storage hook that throws is not modelled. A missing hook is modelled (`hasStorage` false), and the hook's calls are logged as effects.
- Transport.Configure: an absent option takes its default, and a given one is used even when it is falsy. The default `maxRetries` of 3 is not pinned by the tests.
- Transport.PrepareRequest: with no token manager, absent query parameters become an empty map `{}` rather than staying undefined.
- Transport.InjectToken: a token is injected only when it is a non-empty string, as a truthiness check would do.
- Transport.Unwrap: an `swcapi` value that is not an object (null, a string, an array) leaves the body unchanged. The tests only cover object envelopes.
- Transport.ParseRateLimit: header names are taken as already lower-cased, as the transport delivers them. Numbers are parsed strictly: an optional minus sign and digits. A header that does not parse gives no snapshot, where JavaScript would store `NaN`.
- Transport.OnFulfilled: only the body and the rate-limit state are modelled, not the rest of the response object.
- The `permissions()` and `rateLimits()` list unwrapping expected by tests/unit/resources/api-resource.test.ts:36-84 is left out. src/resources/ApiResource.ts:84-96 returns the raw result and has no such unwrapping, so the model follows the source routes.
- The test titled "returns false at exactly 5 minutes remaining" (tests/unit/token-manager.test.ts:99) asserts `true`. The model follows the assertion (`TokensFacts.Boundaries`).
- CharacterResource.HasPermission: membership in a list is JSON equality with the name. If the fetched value is a string, the model tests for a substring, as `String.prototype.includes` does. Any other fetched value gives false.
- Case mapping in method names is ASCII only (`Text.Upper`).
- BaseResource.Request: the "Unsupported HTTP method: " message repeats the name as the caller spelled it, not upper-cased; the tests only use the upper-case `PATCH`.
- Json: numbers are integers only. A fractional `retry_after`, `amount` or `time` cannot be represented.
- The pass-through resource methods `messages.get`, `messages.delete`, `skills.list`, `privileges.list`, `credits.get`, `me`, `get` and `getByHandle` of `src/resources/CharacterResource.ts` are left out: each forwards one fixed path to `request`. They hold no logic beyond the dispatch modelled in `BaseResource.Request`.
- The domain payload shapes (Character, Privilege, Credits and so on) are left out. They pass through the client unchanged, so responses are plain JSON values.
- The scripts, the integration tests and the mock HTTP helper are not part of this model.

=== FILE: ApiResource.dfy ===
/** The API utility endpoints: four fixed GET routes and the `time` call,
    which reads the current game time with GET or converts a time with POST. */
module ApiResource {
  import opened Wrappers
  import opened Json
  import opened BaseResource

  datatype Endpoint = Resources | HelloWorld | HelloAuth | Permissions | RateLimits

  function EndpointPath(e: Endpoint): string {
    match e
    case Resources => "/"
    case HelloWorld => "/api/helloworld"
    case HelloAuth => "/api/helloauth"
    case Permissions => "/api/permissions"
    case RateLimits => "/api/ratelimits"
  }

  /** `getResources()`, `helloWorld()`, `helloAuth()`, `permissions()` and `rateLimits()`. */
  function Route(e: Endpoint): (c: HttpCall)
    ensures c.verb == GET && c.data.None? && c.params.None?
    ensures c.path == EndpointPath(e)
  {
    Call(GET, EndpointPath(e), None)
  }

  const TimePath: string := "/api/time"

  datatype TimeOptions = TimeOptions(cgt: Option<string>, time: Option<int>)

  /** A conversion is asked for by a non-empty `cgt` or any defined `time`, zero included. */
  predicate WantsConversion(options: Option<TimeOptions>) {
    options.Some? && (Filled(options.value.cgt) || options.value.time.Some?)
  }

  function TimeBody(o: TimeOptions): (body: map<string, Json>)
    ensures "cgt" in body <==> Filled(o.cgt)
    ensures "time" in body <==> o.time.Some?
    ensures body.Keys <= {"cgt", "time"}
    ensures Filled(o.cgt) ==> body["cgt"] == JStr(o.cgt.value)
    ensures o.time.Some? ==> body["time"] == JNum(o.time.value)
  {
    var withCgt: map<string, Json> := if Filled(o.cgt) then map["cgt" := JStr(o.cgt.value)] else map[];
    if o.time.Some? then withCgt["time" := JNum(o.time.value)] else withCgt
  }

  /** `time(options?)`. */
  function Time(options: Option<TimeOptions>): (c: HttpCall)
    ensures c.path == TimePath && c.params.None?
    ensures c.verb == POST <==> WantsConversion(options)
    ensures c.verb != POST ==> c.verb == GET && c.data.None?
    ensures c.verb == POST ==> c.data == Some(JObj(TimeBody(options.value)))
  {
    if WantsConversion(options) then Call(POST, TimePath, Some(JObj(TimeBody(options.value))))
    else Call(GET, TimePath, None)
  }

  /** The options a conversion body stands for. */
  function ReadTimeBody(body: Json): TimeOptions {
    TimeOptions(
      match Field(body, "cgt") case Some(JStr(s)) => Some(s) case _ => None,
      match Field(body, "time") case Some(JNum(n)) => Some(n) case _ => None)
  }
}

module ApiResourceFacts {
  import opened Wrappers
  import opened Json
  import opened BaseResource
  import opened ApiResource
  import BaseResourceFacts

  /** No options, `{}`, or only an empty `cgt` read the current time with GET. */
  lemma CurrentTimeUsesGet(cgt: Option<string>)
    requires cgt.None? || cgt == Some("")
    ensures Time(None) == HttpCall(GET, TimePath, None, None)
    ensures Time(Some(TimeOptions(cgt, None))) == HttpCall(GET, TimePath, None, None)
  {
  }

  /** A conversion body holds exactly the fields that were given, and reading
      it back recovers them (an empty `cgt` counts as not given). */
  lemma ConversionBodyRoundTrip(o: TimeOptions)
    requires WantsConversion(Some(o))
    ensures Time(Some(o)).verb == POST
    ensures ReadTimeBody(Time(Some(o)).data.value) == TimeOptions(if Filled(o.cgt) then o.cgt else None, o.time)
  {
  }

  /** `time: 0` is a conversion request even though zero is falsy. */
  lemma ZeroTimeConverts()
    ensures Time(Some(TimeOptions(None, Some(0)))) == HttpCall(POST, TimePath, Some(JObj(map["time" := JNum(0)])), None)
  {
  }

  /** Both fields given: both are sent and nothing else. */
  lemma BothFieldsSent(cgt: string, t: int)
    requires |cgt| > 0
    ensures Time(Some(TimeOptions(Some(cgt), Some(t)))).data == Some(JObj(map["cgt" := JStr(cgt), "time" := JNum(t)]))
  {
  }

  /** Every utility endpoint is what the generic dispatcher makes of `GET` on its path. */
  lemma RoutesMatchDispatch(e: Endpoint)
    ensures Request("GET", EndpointPath(e), None) == Success(Route(e))
  {
    BaseResourceFacts.KnownVerbs(EndpointPath(e), None);
  }

  /** `time` is what the generic dispatcher makes of `POST` with the body when
      a conversion is asked for, and of `GET` otherwise. */
  lemma TimeMatchesDispatch(options: Option<TimeOptions>)
    ensures Request(if WantsConversion(options) then "POST" else "GET", TimePath, Time(options).data)
      == Success(Time(options))
  {
    BaseResourceFacts.KnownVerbs(TimePath, Time(options).data);
  }
}

=== FILE: BaseResource.dfy ===
/** What a resource hands to the HTTP client: the method, the path, the
    body and the query parameters of one call, and the generic `request`
    dispatcher that maps a method name onto the client's four verbs. */
module BaseResource {
  import opened Wrappers
  import opened Json
  import Text

  datatype Verb = GET | POST | PUT | DELETE

  /** One call on the HTTP client. `data` is the body passed to `post`/`put`;
      `params` is the `{ params }` option, absent when none is passed. */
  datatype HttpCall = HttpCall(verb: Verb, path: string, data: Option<Json>, params: Option<map<string, Json>>)

  function VerbName(v: Verb): string {
    match v
    case GET => "GET"
    case POST => "POST"
    case PUT => "PUT"
    case DELETE => "DELETE"
  }

  /** The verb a method name denotes, ignoring letter case. */
  function ParseVerb(name: string): (r: Option<Verb>)
    ensures r.Some? <==> Text.Upper(name) in {"GET", "POST", "PUT", "DELETE"}
    ensures r.Some? ==> VerbName(r.value) == Text.Upper(name)
  {
    var m := Text.Upper(name);
    if m == "GET" then Some(GET)
    else if m == "POST" then Some(POST)
    else if m == "PUT" then Some(PUT)
    else if m == "DELETE" then Some(DELETE)
    else None
  }

  /** The call made for a known verb: `get(path)`, `post(path, data)`,
      `put(path, data)` or `delete(path)`. */
  function Call(v: Verb, path: string, data: Option<Json>): (c: HttpCall)
    ensures c.verb == v && c.path == path && c.params.None?
    ensures c.data == (if v in {POST, PUT} then data else None)
  {
    match v
    case GET => HttpCall(GET, path, None, None)
    case POST => HttpCall(POST, path, data, None)
    case PUT => HttpCall(PUT, path, data, None)
    case DELETE => HttpCall(DELETE, path, None, None)
  }

  function UnsupportedMessage(name: string): string {
    "Unsupported HTTP method: " + name
  }

  /** `request(method, path, data)`. */
  function Request(name: string, path: string, data: Option<Json>): (r: Result<HttpCall, string>)
    ensures r.Success? <==> Text.Upper(name) in {"GET", "POST", "PUT", "DELETE"}
    ensures r.Success? ==> VerbName(r.value.verb) == Text.Upper(name) && r.value.path == path
    ensures r.Success? ==> r.value.params.None?
    ensures r.Success? && r.value.verb in {GET, DELETE} ==> r.value.data.None?
    ensures r.Success? && r.value.verb in {POST, PUT} ==> r.value.data == data
    ensures r.Failure? ==> r.error == UnsupportedMessage(name) && Text.Contains(r.error, name)
  {
    match ParseVerb(name)
    case Some(v) => Success(Call(v, path, data))
    case None =>
      assert UnsupportedMessage(name) == Text.Around("Unsupported HTTP method: ", name, "");
      Failure(UnsupportedMessage(name))
  }
}

module BaseResourceFacts {
  import opened Wrappers
  import opened Json
  import opened BaseResource
  import Text

  /** Method matching ignores letter case: names that agree up to case make
      the same call, or are both rejected. */
  lemma CaseInsensitive(a: string, b: string, path: string, data: Option<Json>)
    requires Text.Upper(a) == Text.Upper(b)
    ensures Request(a, path, data).Success? <==> Request(b, path, data).Success?
    ensures Request(a, path, data).Success? ==> Request(a, path, data) == Request(b, path, data)
  {
  }

  /** The four verbs are accepted in their canonical spelling and in lower case. */
  lemma KnownVerbs(path: string, data: Option<Json>)
    ensures Request("GET", path, data) == Success(HttpCall(GET, path, None, None))
    ensures Request("get", path, data) == Success(HttpCall(GET, path, None, None))
    ensures Request("POST", path, data) == Success(HttpCall(POST, path, data, None))
    ensures Request("PUT", path, data) == Success(HttpCall(PUT, path, data, None))
    ensures Request("DELETE", path, data) == Success(HttpCall(DELETE, path, None, None))
  {
    assert Text.Upper("GET") == "GET";
    assert Text.Upper("get") == "GET";
    assert Text.Upper("POST") == "POST";
    assert Text.Upper("PUT") == "PUT";
    assert Text.Upper("DELETE") == "DELETE";
  }

  /** PATCH is refused with the method name in the message. */
  lemma PatchRejected(path: string, data: Option<Json>)
    ensures Request("PATCH", path, data) == Failure("Unsupported HTTP method: PATCH")
  {
    assert Text.Upper("PATCH") == "PATCH";
    assert ParseVerb("PATCH").None?;
    assert UnsupportedMessage("PATCH") == "Unsupported HTTP method: PATCH";
  }
}

=== FILE: CharacterResource.dfy ===
/** Request builders of the character resource: pagination defaults,
    optional query and body fields, list extraction with an empty-list
    fallback, and the permission check. */
module CharacterResource {
  import opened Wrappers
  import opened Json
  import opened BaseResource
  import Errors
  import Text

  const DefaultStartIndex: int := 1
  const DefaultItemCount: int := 50

  /** `value || fallback` for an optional number: undefined and 0 fall back. */
  function NumberOr(value: Option<int>, fallback: int): (r: int)
    ensures value.None? || value == Some(0) ==> r == fallback
    ensures value.Some? && value.value != 0 ==> r == value.value
  {
    match value
    case Some(n) => if n != 0 then n else fallback
    case None => fallback
  }

  /** `{ start_index: start_index || 1, item_count: item_count || 50 }`. */
  function Pagination(startIndex: Option<int>, itemCount: Option<int>): (p: map<string, Json>)
    ensures p.Keys == {"start_index", "item_count"}
    ensures p["start_index"] == JNum(NumberOr(startIndex, 1))
    ensures p["item_count"] == JNum(NumberOr(itemCount, 50))
  {
    map["start_index" := JNum(NumberOr(startIndex, DefaultStartIndex)),
        "item_count" := JNum(NumberOr(itemCount, DefaultItemCount))]
  }

  /** `response.key || []`, which `messages.list` applies with the key
      `message` and `creditlog.list` with `creditlog`; reading a field of
      `null` throws. */
  function ListOrEmpty(response: Json, key: string): (r: Result<Json, string>)
    ensures r.Failure? <==> response.JNull?
    ensures r.Success? && Field(response, key).Some? && Truthy(Field(response, key).value) ==>
      r.value == Field(response, key).value
    ensures r.Success? && !(Field(response, key).Some? && Truthy(Field(response, key).value)) ==>
      r.value == JArr([])
  {
    if response.JNull? then Failure("TypeError: cannot read properties of null")
    else match Field(response, key)
      case Some(v) => if Truthy(v) then Success(v) else Success(JArr([]))
      case None => Success(JArr([]))
  }

  function CharacterPath(uid: string): string {
    "/character/" + uid
  }

  // messages ------------------------------------------------------------

  datatype ListMessagesOptions = ListMessagesOptions(uid: string, mode: string, startIndex: Option<int>, itemCount: Option<int>)

  /** The call made by `messages.list`. */
  function ListMessagesCall(o: ListMessagesOptions): (c: HttpCall)
    ensures c.verb == GET && c.data.None?
    ensures c.path == CharacterPath(o.uid) + "/messages/" + o.mode
    ensures c.params == Some(Pagination(o.startIndex, o.itemCount))
  {
    HttpCall(GET, CharacterPath(o.uid) + "/messages/" + o.mode, None, Some(Pagination(o.startIndex, o.itemCount)))
  }

  /** The call made by `messages.create`. */
  function CreateMessageCall(uid: string, receivers: string, communication: string): (c: HttpCall)
    ensures c.verb == PUT && c.params.None?
    ensures c.path == CharacterPath(uid) + "/messages/sent"
    ensures c.data.Some? && c.data.value.JObj? && c.data.value.fields.Keys == {"receivers", "communication"}
    ensures c.data.value.fields["receivers"] == JStr(receivers)
    ensures c.data.value.fields["communication"] == JStr(communication)
  {
    Call(PUT, CharacterPath(uid) + "/messages/sent",
         Some(JObj(map["receivers" := JStr(receivers), "communication" := JStr(communication)])))
  }

  // privileges ----------------------------------------------------------

  function PrivilegePath(uid: string, group: string, privilege: string): string {
    CharacterPath(uid) + "/privileges/" + group + "/" + privilege
  }

  /** `faction_id` is sent exactly when it is defined, zero included. */
  function FactionParams(factionId: Option<int>): (p: map<string, Json>)
    ensures p.Keys <= {"faction_id"}
    ensures "faction_id" in p <==> factionId.Some?
    ensures factionId.Some? ==> p["faction_id"] == JNum(factionId.value)
  {
    match factionId
    case Some(f) => map["faction_id" := JNum(f)]
    case None => map[]
  }

  /** The call made by `privileges.get`. */
  function GetPrivilegeCall(uid: string, group: string, privilege: string, factionId: Option<int>): (c: HttpCall)
    ensures c.verb == GET && c.data.None?
    ensures c.path == PrivilegePath(uid, group, privilege)
    ensures c.params == Some(FactionParams(factionId))
  {
    HttpCall(GET, PrivilegePath(uid, group, privilege), None, Some(FactionParams(factionId)))
  }

  /** `{ revoke: 'true' }` to revoke, `{}` to grant. */
  function PrivilegeBody(revoke: Option<bool>): (body: map<string, Json>)
    ensures body.Keys <= {"revoke"}
    ensures "revoke" in body <==> revoke == Some(true)
    ensures "revoke" in body ==> body["revoke"] == JStr("true")
  {
    if revoke == Some(true) then map["revoke" := JStr("true")] else map[]
  }

  /** The call made by `privileges.update`. */
  function UpdatePrivilegeCall(uid: string, group: string, privilege: string, revoke: Option<bool>, factionId: Option<int>): (c: HttpCall)
    ensures c.verb == POST
    ensures c.path == PrivilegePath(uid, group, privilege)
    ensures c.data == Some(JObj(PrivilegeBody(revoke)))
    ensures c.params == Some(FactionParams(factionId))
  {
    HttpCall(POST, PrivilegePath(uid, group, privilege), Some(JObj(PrivilegeBody(revoke))), Some(FactionParams(factionId)))
  }

  // credits -------------------------------------------------------------

  datatype CreditsUpdate = CreditsUpdate(uid: string, amount: int, recipient: Option<string>, reason: Option<string>)

  /** `amount` always; `recipient` and `reason` only when non-empty. */
  function CreditsBody(o: CreditsUpdate): (body: map<string, Json>)
    ensures "amount" in body && body["amount"] == JNum(o.amount)
    ensures "recipient" in body <==> Filled(o.recipient)
    ensures "reason" in body <==> Filled(o.reason)
    ensures Filled(o.recipient) ==> body["recipient"] == JStr(o.recipient.value)
    ensures Filled(o.reason) ==> body["reason"] == JStr(o.reason.value)
    ensures body.Keys <= {"amount", "recipient", "reason"}
  {
    var base := map["amount" := JNum(o.amount)];
    var withRecipient := if Filled(o.recipient) then base["recipient" := JStr(o.recipient.value)] else base;
    if Filled(o.reason) then withRecipient["reason" := JStr(o.reason.value)] else withRecipient
  }

  /** The call made by `credits.update`. */
  function UpdateCreditsCall(o: CreditsUpdate): (c: HttpCall)
    ensures c.verb == POST && c.params.None?
    ensures c.path == CharacterPath(o.uid) + "/credits"
    ensures c.data == Some(JObj(CreditsBody(o)))
  {
    Call(POST, CharacterPath(o.uid) + "/credits", Some(JObj(CreditsBody(o))))
  }

  /** The transfer a credits body describes (empty strings count as absent). */
  function ReadCreditsBody(uid: string, body: Json): Option<CreditsUpdate> {
    match Field(body, "amount")
    case Some(JNum(n)) =>
      Some(CreditsUpdate(uid, n,
        match Field(body, "recipient") case Some(JStr(s)) => Some(s) case _ => None,
        match Field(body, "reason") case Some(JStr(s)) => Some(s) case _ => None))
    case _ => None
  }

  // credit log ----------------------------------------------------------

  datatype CreditlogOptions = CreditlogOptions(uid: string, startIndex: Option<int>, itemCount: Option<int>, startId: Option<int>)

  /** The call made by `creditlog.list`. */
  function CreditlogCall(o: CreditlogOptions): (c: HttpCall)
    ensures c.verb == GET && c.data.None?
    ensures c.path == CharacterPath(o.uid) + "/creditlog"
    ensures c.params.Some? && "start_index" in c.params.value && "item_count" in c.params.value
    ensures c.params.value["start_index"] == JNum(NumberOr(o.startIndex, 1))
    ensures c.params.value["item_count"] == JNum(NumberOr(o.itemCount, 50))
    ensures "start_id" in c.params.value <==> o.startId.Some?
    ensures o.startId.Some? ==> c.params.value["start_id"] == JNum(o.startId.value)
    ensures c.params.value.Keys <= {"start_index", "item_count", "start_id"}
  {
    var page := Pagination(o.startIndex, o.itemCount);
    var params := if o.startId.Some? then page["start_id" := JNum(o.startId.value)] else page;
    HttpCall(GET, CharacterPath(o.uid) + "/creditlog", None, Some(params))
  }

  // permissions ---------------------------------------------------------

  /** The call `permissions.list` makes. */
  function PermissionsCall(uid: string): (c: HttpCall)
    ensures c.verb == GET && c.data.None? && c.params.None?
    ensures c.path == CharacterPath(uid) + "/permissions"
  {
    Call(GET, CharacterPath(uid) + "/permissions", None)
  }

  /** `hasPermission`, given what fetching the permission list produced.
      `includes` on a list tests membership and on a string tests for a
      substring; on anything else it throws, and every failure reads as
      "not granted". */
  function HasPermission(fetched: Result<Json, Errors.SWCError>, permission: string): (granted: bool)
    ensures fetched.Failure? ==> !granted
    ensures fetched.Success? && fetched.value.JArr? ==> (granted <==> JStr(permission) in fetched.value.items)
    ensures granted ==> fetched.Success? && (fetched.value.JArr? || fetched.value.JStr?)
  {
    match fetched
    case Failure(_) => false
    case Success(JArr(items)) => JStr(permission) in items
    case Success(JStr(s)) => Text.Contains(s, permission)
    case Success(_) => false
  }
}

module CharacterResourceFacts {
  import opened Wrappers
  import opened Json
  import opened BaseResource
  import opened CharacterResource
  import BaseResourceFacts
  import Text

  /** Absent and zero pagination values both take the defaults 1 and 50;
      any other value is sent as given. */
  lemma PaginationDefaults(startIndex: int, itemCount: int)
    requires startIndex != 0 && itemCount != 0
    ensures Pagination(None, None) == map["start_index" := JNum(1), "item_count" := JNum(50)]
    ensures Pagination(Some(0), Some(0)) == Pagination(None, None)
    ensures Pagination(Some(startIndex), Some(itemCount)) == map["start_index" := JNum(startIndex), "item_count" := JNum(itemCount)]
  {
  }

  /** A list held under the key is returned as it is; a response without it yields `[]`. */
  lemma ListFallback(fields: map<string, Json>, key: string, items: seq<Json>)
    ensures ListOrEmpty(JObj(fields[key := JArr(items)]), key) == Success(JArr(items))
    ensures key !in fields ==> ListOrEmpty(JObj(fields), key) == Success(JArr([]))
  {
  }

  /** A credits body says exactly which transfer was asked for: reading it
      back recovers the options, with empty strings read as absent. */
  lemma CreditsBodyRoundTrip(o: CreditsUpdate)
    ensures ReadCreditsBody(o.uid, UpdateCreditsCall(o).data.value)
      == Some(o.(recipient := if Filled(o.recipient) then o.recipient else None,
                 reason := if Filled(o.reason) then o.reason else None))
  {
  }

  /** A faction id of zero is still sent, on both privilege calls. */
  lemma ZeroFactionIsSent(uid: string, group: string, privilege: string, revoke: Option<bool>)
    ensures GetPrivilegeCall(uid, group, privilege, Some(0)).params == Some(map["faction_id" := JNum(0)])
    ensures UpdatePrivilegeCall(uid, group, privilege, revoke, Some(0)).params == Some(map["faction_id" := JNum(0)])
    ensures GetPrivilegeCall(uid, group, privilege, None).params == Some(map[])
  {
  }

  /** Granting sends an empty body; revoking sends `{ revoke: 'true' }`. */
  lemma GrantAndRevoke(uid: string, group: string, privilege: string, factionId: Option<int>)
    ensures UpdatePrivilegeCall(uid, group, privilege, None, factionId).data == Some(JObj(map[]))
    ensures UpdatePrivilegeCall(uid, group, privilege, Some(false), factionId).data == Some(JObj(map[]))
    ensures UpdatePrivilegeCall(uid, group, privilege, Some(true), factionId).data == Some(JObj(map["revoke" := JStr("true")]))
  {
  }

  /** `messages.create` is what the generic dispatcher makes of `PUT` on the sent-messages path. */
  lemma MessageBuilderMatchesDispatch(uid: string, receivers: string, communication: string)
    ensures Request("PUT", CharacterPath(uid) + "/messages/sent", CreateMessageCall(uid, receivers, communication).data)
      == Success(CreateMessageCall(uid, receivers, communication))
  {
    BaseResourceFacts.KnownVerbs(CharacterPath(uid) + "/messages/sent", CreateMessageCall(uid, receivers, communication).data);
  }

  /** `credits.update` is what the generic dispatcher makes of `POST` on the credits path. */
  lemma CreditsBuilderMatchesDispatch(o: CreditsUpdate)
    ensures Request("POST", CharacterPath(o.uid) + "/credits", UpdateCreditsCall(o).data) == Success(UpdateCreditsCall(o))
  {
    BaseResourceFacts.KnownVerbs(CharacterPath(o.uid) + "/credits", UpdateCreditsCall(o).data);
  }

  /** A fetched list grants exactly the names listed in it, wherever they stand. */
  lemma ListedIsGranted(items: seq<Json>, permission: string)
    ensures HasPermission(Success(JArr(items)), permission) <==>
      exists i :: 0 <= i < |items| && items[i] == JStr(permission)
  {
  }

  /** Fetching a longer list, on either side, never revokes a grant. */
  lemma GrantsSurviveExtension(items: seq<Json>, before: seq<Json>, after: seq<Json>, permission: string)
    requires HasPermission(Success(JArr(items)), permission)
    ensures HasPermission(Success(JArr(before + items + after)), permission)
  {
    var i :| 0 <= i < |items| && items[i] == JStr(permission);
    assert (before + items + after)[|before| + i] == JStr(permission);
  }

  /** A fetched string grants every name it contains. */
  lemma StringGrantsSubstring(before: string, permission: string, after: string)
    ensures HasPermission(Success(JStr(before + permission + after)), permission)
  {
    Text.ContainsMiddle(before, permission, after);
  }

  /** `permissions.list` is what the generic dispatcher makes of `GET` on the permissions path. */
  lemma PermissionsMatchDispatch(uid: string)
    ensures Request("GET", CharacterPath(uid) + "/permissions", None) == Success(PermissionsCall(uid))
  {
    BaseResourceFacts.KnownVerbs(CharacterPath(uid) + "/permissions", None);
  }
}

=== FILE: Errors.dfy ===
/** The client's error record: a closed set of kinds, a default retry
    policy per kind, classification of HTTP and network failures, and the
    one-sentence message shown to end users. */
module Errors {
  import opened Wrappers
  import opened Json
  import Text

  datatype ErrorKind = Auth | NotFound | Validation | RateLimit | Server | Network | Unknown

  /** A classified error. `cause` is the message of the underlying exception
      for network failures; `response` is the raw error body. */
  datatype SWCError = SWCError(
    kind: ErrorKind,
    message: string,
    statusCode: Option<int>,
    retryable: bool,
    retryAfter: Option<int>,
    requestId: Option<string>,
    response: Option<Json>,
    cause: Option<string>)

  /** What a caller may pass when constructing an error; `retryable`
      overrides the kind's default when present. */
  datatype ErrorOptions = ErrorOptions(
    kind: ErrorKind,
    statusCode: Option<int>,
    retryable: Option<bool>,
    retryAfter: Option<int>,
    requestId: Option<string>,
    response: Option<Json>,
    cause: Option<string>)

  function DefaultRetryable(kind: ErrorKind): bool {
    match kind
    case Network => true
    case Server => true
    case RateLimit => true
    case Auth => false
    case NotFound => false
    case Validation => false
    case Unknown => false
  }

  function KindOnly(kind: ErrorKind): ErrorOptions {
    ErrorOptions(kind, None, None, None, None, None, None)
  }

  /** `new SWCError(message, options)`. */
  function NewError(message: string, opts: ErrorOptions): (e: SWCError)
    ensures e.kind == opts.kind && e.message == message
    ensures opts.retryable.Some? ==> e.retryable == opts.retryable.value
    ensures opts.retryable.None? ==> (e.retryable <==> opts.kind in {Network, Server, RateLimit})
    ensures e.statusCode == opts.statusCode && e.retryAfter == opts.retryAfter
    ensures e.requestId == opts.requestId && e.response == opts.response && e.cause == opts.cause
  {
    SWCError(opts.kind, message, opts.statusCode, opts.retryable.GetOr(DefaultRetryable(opts.kind)),
             opts.retryAfter, opts.requestId, opts.response, opts.cause)
  }

  const RateLimitSentinel: string := "rate_limit_exceeded"
  const RateLimitPhrase: string := "rate limit"

  /** The field holds a string that mentions a rate limit, in any letter case. */
  predicate MentionsRateLimit(body: Json, key: string) {
    match Field(body, key)
    case Some(JStr(s)) => Text.Contains(Text.Lower(s), RateLimitPhrase)
    case _ => false
  }

  /** A 400 body that signals a rate-limit condition rather than a bad request. */
  predicate SignalsRateLimit(body: Json) {
    || Field(body, "error") == Some(JStr(RateLimitSentinel))
    || MentionsRateLimit(body, "message")
    || MentionsRateLimit(body, "error_description")
  }

  /** Status-code classification, in the documented precedence order. */
  function Classify(status: int, body: Json): (k: ErrorKind)
    ensures k == Auth <==> status == 401 || status == 403
    ensures k == NotFound <==> status == 404
    ensures k == RateLimit <==> status == 429 || (status == 400 && SignalsRateLimit(body))
    ensures k == Validation <==> status == 422 || (status == 400 && !SignalsRateLimit(body))
    ensures k == Server <==> status >= 500
    ensures k != Network
  {
    if status == 401 || status == 403 then Auth
    else if status == 404 then NotFound
    else if status == 400 && SignalsRateLimit(body) then RateLimit
    else if status == 400 || status == 422 then Validation
    else if status == 429 then RateLimit
    else if status >= 500 then Server
    else Unknown
  }

  function FallbackMessage(status: int): string {
    "Request failed with status " + Text.FormatInt(status)
  }

  /** The first non-empty of `error_description`, `message` and a string
      `error`, else a generic sentence naming the status. */
  function DeriveMessage(status: int, body: Json): (m: string)
    ensures |m| > 0
    ensures NonEmptyString(body, "error_description").Some? ==>
      m == NonEmptyString(body, "error_description").value
    ensures NonEmptyString(body, "error_description").None? && NonEmptyString(body, "message").Some? ==>
      m == NonEmptyString(body, "message").value
    ensures (NonEmptyString(body, "error_description").None? && NonEmptyString(body, "message").None?
             && NonEmptyString(body, "error").Some?) ==> m == NonEmptyString(body, "error").value
    ensures (NonEmptyString(body, "error_description").None? && NonEmptyString(body, "message").None?
             && NonEmptyString(body, "error").None?) ==> m == FallbackMessage(status)
  {
    match NonEmptyString(body, "error_description")
    case Some(d) => d
    case None =>
      match NonEmptyString(body, "message")
      case Some(msg) => msg
      case None =>
        match NonEmptyString(body, "error")
        case Some(e) => e
        case None => FallbackMessage(status)
  }

  /** `retry_after` when it is a number. */
  function RetryAfterField(body: Json): Option<int> {
    match Field(body, "retry_after")
    case Some(JNum(n)) => Some(n)
    case _ => None
  }

  /** `SWCError.fromHttpResponse(status, body, requestId)`. */
  function FromHttpResponse(status: int, body: Json, requestId: Option<string>): (e: SWCError)
    ensures e.kind == Classify(status, body)
    ensures e.statusCode == Some(status)
    ensures e.message == DeriveMessage(status, body)
    ensures e.retryable <==> e.kind in {Server, RateLimit}
    ensures e.retryAfter.Some? <==> e.kind == RateLimit && Field(body, "retry_after").Some? && Field(body, "retry_after").value.JNum?
    ensures e.retryAfter.Some? ==> Field(body, "retry_after") == Some(JNum(e.retryAfter.value))
    ensures e.requestId == requestId
    ensures e.response == Some(body)
    ensures e.cause.None?
  {
    var kind := Classify(status, body);
    var retryAfter := if kind == RateLimit then RetryAfterField(body) else None;
    NewError(DeriveMessage(status, body),
             ErrorOptions(kind, Some(status), None, retryAfter, requestId, Some(body), None))
  }

  /** `SWCError.fromNetworkError(cause)`, with the cause given by its message. */
  function FromNetworkError(cause: string): (e: SWCError)
    ensures e.kind == Network && e.retryable
    ensures e.cause == Some(cause)
    ensures Text.Contains(e.message, cause)
    ensures e.statusCode.None? && e.response.None?
  {
    Text.ContainsMiddle("Network error: ", cause, "");
    NewError("Network error: " + cause + "",
             ErrorOptions(Network, None, None, None, None, None, Some(cause)))
  }

  /** `toUserFriendlyMessage()`: one sentence per kind. */
  function UserFriendlyMessage(e: SWCError): (m: string)
    ensures e.kind == Auth ==> Text.Contains(m, "Authentication")
    ensures e.kind == RateLimit ==> Text.Contains(m, "Rate limit")
    ensures e.kind == RateLimit && e.retryAfter.Some? ==>
      Text.Contains(m, Text.FormatInt(e.retryAfter.value) + " seconds")
    ensures e.kind == NotFound ==> Text.Contains(m, "not found")
    ensures e.kind == Validation ==> Text.Contains(m, "Invalid")
    ensures e.kind == Server ==> Text.Contains(m, "server error")
    ensures e.kind == Network ==> Text.Contains(m, "Network")
    ensures e.kind == Unknown ==> Text.Contains(m, "unexpected")
  {
    match e.kind
    case Auth => Text.Around("", "Authentication", " failed. Please check your access token or re-authenticate.")
    case RateLimit =>
      (match e.retryAfter
       case Some(n) =>
         Text.Around(Text.Around("", "Rate limit", " exceeded. Please wait "),
                     Text.FormatInt(n) + " seconds", " before retrying.")
       case None => Text.Around("", "Rate limit", " exceeded. Please wait before retrying."))
    case NotFound => Text.Around("The requested resource was ", "not found", ".")
    case Validation => Text.Around("", "Invalid", " request. Please check the parameters.")
    case Server => Text.Around("A ", "server error", " occurred. Please try again later.")
    case Network => Text.Around("", "Network", " error. Please check your connection.")
    case Unknown => Text.Around("An ", "unexpected", " error occurred.")
  }
}

module ErrorsFacts {
  import opened Wrappers
  import opened Json
  import opened Errors

  /** Two leading characters that tell the friendly sentences apart. */
  function Opening(kind: ErrorKind): string {
    match kind
    case Auth => "Au"
    case RateLimit => "Ra"
    case NotFound => "Th"
    case Validation => "In"
    case Server => "A "
    case Network => "Ne"
    case Unknown => "An"
  }

  lemma FriendlyOpening(e: SWCError)
    ensures |UserFriendlyMessage(e)| >= 2 && UserFriendlyMessage(e)[..2] == Opening(e.kind)
  {
    var m := UserFriendlyMessage(e);
    match e.kind
    case Auth => assert m[..2] == "Authentication"[..2];
    case RateLimit => assert m[..2] == "Rate limit"[..2];
    case NotFound => assert m[..2] == "The requested resource was "[..2];
    case Validation => assert m[..2] == "Invalid"[..2];
    case Server => assert m[..2] == "A "[..2];
    case Network => assert m[..2] == "Network"[..2];
    case Unknown => assert m[..2] == "An "[..2];
  }

  /** Errors of different kinds never show the user the same sentence. */
  lemma FriendlyMessagesDistinct(e1: SWCError, e2: SWCError)
    requires e1.kind != e2.kind
    ensures UserFriendlyMessage(e1) != UserFriendlyMessage(e2)
  {
    FriendlyOpening(e1);
    FriendlyOpening(e2);
  }

  /** The retry default splits the kinds exactly as documented, and an
      explicit flag always wins over it. */
  lemma RetryableDefaults(message: string, opts: ErrorOptions)
    ensures opts.retryable.None? && opts.kind in {Network, Server, RateLimit} ==> NewError(message, opts).retryable
    ensures opts.retryable.None? && opts.kind in {Auth, NotFound, Validation, Unknown} ==> !NewError(message, opts).retryable
    ensures opts.retryable == Some(true) ==> NewError(message, opts).retryable
  {
  }

  /** 401 and 403 are authentication failures that keep their status and are never retried. */
  lemma AuthStatuses(status: int, body: Json, requestId: Option<string>)
    requires status == 401 || status == 403
    ensures FromHttpResponse(status, body, requestId).kind == Auth
    ensures FromHttpResponse(status, body, requestId).statusCode == Some(status)
    ensures !FromHttpResponse(status, body, requestId).retryable
  {
  }

  /** Every 5xx status is a retryable server error. */
  lemma ServerStatuses(status: int, body: Json, requestId: Option<string>)
    requires status >= 500
    ensures FromHttpResponse(status, body, requestId).kind == Server
    ensures FromHttpResponse(status, body, requestId).retryable
  {
  }

  /** A 400 whose body says "Rate limit ..." in its message is a rate-limit error, not a validation error. */
  lemma RateLimitMessageOn400(rest: string)
    ensures FromHttpResponse(400, JObj(map["message" := JStr("Rate limit" + rest)]), None).kind == RateLimit
  {
    var s := "Rate limit" + rest;
    var low := Text.Lower(s);
    assert low[0..10] == RateLimitPhrase;
    assert Text.OccursAt(low, RateLimitPhrase, 0);
  }

  /** The body's message fields win over the fallback, in priority order. */
  lemma MessagePriority(status: int, d: string, m: string, err: string)
    requires |d| > 0 && |m| > 0 && |err| > 0
    ensures FromHttpResponse(status, JObj(map["error_description" := JStr(d), "message" := JStr(m), "error" := JStr(err)]), None).message == d
    ensures FromHttpResponse(status, JObj(map["message" := JStr(m), "error" := JStr(err)]), None).message == m
    ensures FromHttpResponse(status, JObj(map["error" := JStr(err), "error_description" := JNum(1)]), None).message == err
  {
  }

  /** The candidate messages of a body, in priority order. */
  function Candidates(body: Json): seq<Option<string>> {
    [NonEmptyString(body, "error_description"), NonEmptyString(body, "message"), NonEmptyString(body, "error")]
  }

  /** The first candidate that is present, else the fallback. */
  function FirstPresent(candidates: seq<Option<string>>, fallback: string): (r: string)
    ensures (forall i :: 0 <= i < |candidates| ==> candidates[i].None?) ==> r == fallback
    ensures r == fallback || exists i :: 0 <= i < |candidates| && candidates[i] == Some(r)
    ensures forall i :: (0 <= i < |candidates| && candidates[i].Some? &&
      (forall j :: 0 <= j < i ==> candidates[j].None?)) ==> r == candidates[i].value
  {
    if |candidates| == 0 then fallback
    else match candidates[0]
      case Some(v) => v
      case None =>
        var r := FirstPresent(candidates[1..], fallback);
        assert forall i :: 1 <= i < |candidates| ==> candidates[i] == candidates[1..][i - 1];
        r
  }

  /** The message of an HTTP error is the first non-empty string among the
      message fields in priority order, else the fallback, for every body. */
  lemma MessageIsFirstPresent(status: int, body: Json)
    ensures DeriveMessage(status, body) == FirstPresent(Candidates(body), FallbackMessage(status))
  {
    var cs := Candidates(body);
    var r := FirstPresent(cs, FallbackMessage(status));
    if cs[0].Some? {
      assert r == cs[0].value;
    } else if cs[1].Some? {
      assert r == cs[1].value;
    } else if cs[2].Some? {
      assert r == cs[2].value;
    } else {
      assert forall i :: 0 <= i < |cs| ==> cs[i].None?;
    }
  }
}

=== FILE: Json.dfy ===
/** The JSON values that travel through the client: request bodies, query
    parameters and response bodies. Objects are key/value maps, because the
    client only ever asks whether a key is present and what it holds. */
module Json {
  import opened Wrappers

  datatype Json =
    | JNull
    | JBool(b: bool)
    | JNum(n: int)
    | JStr(s: string)
    | JArr(items: seq<Json>)
    | JObj(fields: map<string, Json>)

  /** JavaScript truthiness of a value (`if (v)`, `v || fallback`). */
  predicate Truthy(v: Json) {
    match v
    case JNull => false
    case JBool(b) => b
    case JNum(n) => n != 0
    case JStr(s) => |s| > 0
    case JArr(_) => true
    case JObj(_) => true
  }

  /** `body.key` where `body` is any value: absent for non-objects and for
      objects without the key. */
  function Field(body: Json, key: string): (r: Option<Json>)
    ensures r.Some? <==> body.JObj? && key in body.fields
    ensures r.Some? ==> r.value == body.fields[key]
  {
    if body.JObj? && key in body.fields then Some(body.fields[key]) else None
  }

  /** An optional string that is present and truthy, that is, non-empty. */
  predicate Filled(s: Option<string>) {
    s.Some? && Truthy(JStr(s.value))
  }

  /** `body.key` when it holds a non-empty string. */
  function NonEmptyString(body: Json, key: string): (r: Option<string>)
    ensures r.Some? <==> Field(body, key).Some? && Field(body, key).value.JStr? && |Field(body, key).value.s| > 0
    ensures r.Some? ==> Field(body, key) == Some(JStr(r.value))
  {
    var text := match Field(body, key) case Some(JStr(s)) => Some(s) case _ => None;
    if Filled(text) then text else None
  }
}

=== FILE: Text.dfy ===
/** Character-level helpers the client relies on: ASCII case mapping,
    substring search, and decimal formatting and parsing of integers. */
module Text {
  import opened Wrappers

  function LowerChar(c: char): char {
    if 'A' <= c <= 'Z' then (c as int + 32) as char else c
  }

  function UpperChar(c: char): char {
    if 'a' <= c <= 'z' then (c as int - 32) as char else c
  }

  /** `s.toLowerCase()`, restricted to ASCII letters. */
  function Lower(s: string): (r: string)
    ensures |r| == |s|
    ensures forall i :: 0 <= i < |s| ==> r[i] == LowerChar(s[i])
  {
    seq(|s|, i requires 0 <= i < |s| => LowerChar(s[i]))
  }

  /** `s.toUpperCase()`, restricted to ASCII letters. */
  function Upper(s: string): (r: string)
    ensures |r| == |s|
    ensures forall i :: 0 <= i < |s| ==> r[i] == UpperChar(s[i])
  {
    seq(|s|, i requires 0 <= i < |s| => UpperChar(s[i]))
  }

  /** `sub` occurs in `s` starting at index `i`. */
  predicate OccursAt(s: string, sub: string, i: int) {
    0 <= i && i + |sub| <= |s| && s[i..i + |sub|] == sub
  }

  /** `s.includes(sub)`. */
  predicate Contains(s: string, sub: string) {
    exists i :: 0 <= i <= |s| - |sub| && OccursAt(s, sub, i)
  }

  lemma ContainsMiddle(a: string, b: string, c: string)
    ensures Contains(a + b + c, b)
  {
    var s := a + b + c;
    assert s[|a|..|a| + |b|] == b;
    assert OccursAt(s, b, |a|);
  }

  /** A piece of text that surrounds a required phrase. */
  function Around(before: string, phrase: string, after: string): (r: string)
    ensures r == before + phrase + after
    ensures Contains(r, phrase)
    ensures forall x :: Contains(before, x) || Contains(after, x) ==> Contains(r, x)
  {
    ContainsMiddle(before, phrase, after);
    forall x | Contains(before, x) || Contains(after, x)
      ensures Contains(before + phrase + after, x)
    {
      var s := before + phrase + after;
      if Contains(before, x) {
        var i :| 0 <= i <= |before| - |x| && OccursAt(before, x, i);
        assert s[i..i + |x|] == before[i..i + |x|];
        assert OccursAt(s, x, i);
      } else {
        var i :| 0 <= i <= |after| - |x| && OccursAt(after, x, i);
        var j := |before| + |phrase| + i;
        assert s[j..j + |x|] == after[i..i + |x|];
        assert OccursAt(s, x, j);
      }
    }
    before + phrase + after
  }

  predicate IsDigit(c: char) {
    '0' <= c <= '9'
  }

  predicate AllDigits(s: string) {
    forall i :: 0 <= i < |s| ==> IsDigit(s[i])
  }

  function DigitChar(d: nat): (c: char)
    requires d < 10
    ensures IsDigit(c)
  {
    ('0' as int + d) as char
  }

  function DigitValue(c: char): (d: nat)
    requires IsDigit(c)
    ensures d < 10
  {
    c as int - '0' as int
  }

  /** Decimal digits of `n`, most significant first, without leading zeros. */
  function FormatNat(n: nat): (s: string)
    ensures |s| >= 1 && AllDigits(s)
    decreases n
  {
    if n < 10 then [DigitChar(n)] else FormatNat(n / 10) + [DigitChar(n % 10)]
  }

  /** `String(n)` for an integer: a minus sign for negatives, then the digits. */
  function FormatInt(n: int): (s: string)
    ensures |s| >= 1
  {
    if n < 0 then "-" + FormatNat(-n) else FormatNat(n)
  }

  /** Value of a non-empty string of decimal digits. */
  function DigitsValue(s: string): nat
    requires AllDigits(s)
    decreases |s|
  {
    if |s| == 0 then 0 else DigitsValue(s[..|s| - 1]) * 10 + DigitValue(s[|s| - 1])
  }

  /** Strict decimal integer parsing: an optional `-` followed by one or
      more digits and nothing else; anything else has no value. */
  function ParseInt(s: string): (r: Option<int>)
    ensures r.Some? <==> (|s| >= 1 && AllDigits(s)) || (|s| >= 2 && s[0] == '-' && AllDigits(s[1..]))
  {
    if |s| >= 2 && s[0] == '-' && AllDigits(s[1..]) then Some(0 - DigitsValue(s[1..]) as int)
    else if |s| >= 1 && AllDigits(s) then Some(DigitsValue(s))
    else None
  }

  lemma {:induction false} DigitsOfFormat(n: nat)
    ensures DigitsValue(FormatNat(n)) == n
    decreases n
  {
    if n >= 10 {
      var s := FormatNat(n);
      var p := FormatNat(n / 10);
      assert s == p + [DigitChar(n % 10)];
      assert s[..|s| - 1] == p;
      DigitsOfFormat(n / 10);
    }
  }

  /** Parsing undoes formatting: the decimal text of any integer reads back as it. */
  lemma ParseFormat(n: int)
    ensures ParseInt(FormatInt(n)) == Some(n)
  {
    var s := FormatInt(n);
    if n < 0 {
      assert s[1..] == FormatNat(-n);
      DigitsOfFormat(-n);
    } else {
      DigitsOfFormat(n);
    }
  }
}

=== FILE: Tokens.dfy ===
/** The token manager: one optional OAuth credential, its expiry and
    refresh, and the storage hook it reports to. Every operation is a pure
    transition; the clock is the `now` argument (epoch milliseconds), the
    refresh callback is a function held in the state, the value the storage
    hook loads is an argument, and the calls made to the storage hook and to
    the callback are returned as a log of effects. */
module Tokens {
  import opened Wrappers
  import opened Errors

  /** Lifetime given to a bare access token: one hour. */
  const DefaultLifetimeMs: int := 3600 * 1000
  /** How long before expiry a token is already due for refresh: five minutes. */
  const RefreshBufferMs: int := 5 * 60 * 1000

  datatype Credential = Credential(accessToken: string, refreshToken: Option<string>, expiresAt: int)

  /** What `setToken` and the constructor accept: a bare access token or a full credential. */
  datatype TokenInput = Bare(token: string) | Full(credential: Credential)

  /** The refresh callback: given the refresh token it yields a new
      credential or fails with a reason. */
  type Refresher = string -> Result<Credential, string>

  /** A call the manager makes to a collaborator. */
  datatype Effect = SaveToken(token: Credential) | LoadToken | ClearToken | CallRefresh(refreshToken: string)

  datatype Manager = Manager(token: Option<Credential>, refresher: Option<Refresher>, hasStorage: bool)

  /** A manager after an operation, with the calls that operation made. */
  datatype Step = Step(manager: Manager, effects: seq<Effect>)

  /** Why a refresh did not happen: the manager refused, or the callback failed. */
  datatype TokenError = Refused(error: SWCError) | CallbackFailed(reason: string)

  /** The result of `getAccessToken`: the access token (or null) and the manager afterwards. */
  datatype Fetch = Fetch(manager: Manager, accessToken: Option<string>, effects: seq<Effect>)

  function Normalize(input: TokenInput, now: int): (c: Credential)
    ensures input.Bare? ==> c.accessToken == input.token && c.refreshToken.None?
    ensures input.Bare? ==> c.expiresAt - now == 3600000
    ensures input.Full? ==> c == input.credential
  {
    match input
    case Bare(s) => Credential(s, None, now + DefaultLifetimeMs)
    case Full(c) => c
  }

  /** `new TokenManager(input?, storage?)`. */
  function Create(input: Option<TokenInput>, hasStorage: bool, now: int): (m: Manager)
    ensures m.token.None? <==> input.None?
    ensures input.Some? ==> m.token == Some(Normalize(input.value, now))
    ensures m.refresher.None? && m.hasStorage == hasStorage
  {
    Manager(if input.Some? then Some(Normalize(input.value, now)) else None, None, hasStorage)
  }

  function SetRefreshCallback(m: Manager, callback: Refresher): (m': Manager)
    ensures m'.refresher == Some(callback) && m'.token == m.token && m'.hasStorage == m.hasStorage
  {
    m.(refresher := Some(callback))
  }

  /** `getToken()`: the held credential, or null. */
  function GetToken(m: Manager): (r: Option<Credential>)
    ensures r.None? ==> forall now :: IsExpired(m, now) && !ShouldRefresh(m, now)
    ensures r.Some? <==> m.token.Some?
    ensures r.Some? ==>
      (r.value.accessToken == m.token.value.accessToken && r.value.refreshToken == m.token.value.refreshToken)
    ensures r.Some? ==> forall now :: (IsExpired(m, now) <==> now >= r.value.expiresAt)
  {
    m.token
  }

  /** `setToken(input)`: replaces the credential and hands it to the storage hook. */
  function SetToken(m: Manager, input: TokenInput, now: int): (s: Step)
    ensures s.manager.token == Some(Normalize(input, now))
    ensures s.manager.refresher == m.refresher && s.manager.hasStorage == m.hasStorage
    ensures m.hasStorage ==> s.effects == [SaveToken(Normalize(input, now))]
    ensures !m.hasStorage ==> s.effects == []
  {
    var c := Normalize(input, now);
    Step(m.(token := Some(c)), if m.hasStorage then [SaveToken(c)] else [])
  }

  /** `isExpired()`: no credential, or its expiry instant has been reached. */
  predicate IsExpired(m: Manager, now: int)
    ensures m.token.None? ==> IsExpired(m, now)
    ensures !IsExpired(m, now) ==> m.token.Some? && now < m.token.value.expiresAt
  {
    m.token.None? || now >= m.token.value.expiresAt
  }

  /** `shouldRefresh()`: a credential is held and it will have expired five
      minutes from now. */
  predicate ShouldRefresh(m: Manager, now: int)
    ensures ShouldRefresh(m, now) <==> m.token.Some? && IsExpired(m, now + 300000)
  {
    m.token.Some? && now >= m.token.value.expiresAt - RefreshBufferMs
  }

  /** `hasRefreshToken()`: a credential is held and its refresh token is non-empty. */
  predicate HasRefreshToken(m: Manager)
    ensures HasRefreshToken(m) ==> m.token.Some? && m.token.value.refreshToken != Some("")
    ensures HasRefreshToken(m) <==> exists c, rt :: m.token == Some(c) && c.refreshToken == Some(rt) && rt != ""
  {
    m.token.Some? && m.token.value.refreshToken.Some? && |m.token.value.refreshToken.value| > 0
  }

  /** `clear()`: forgets the credential and tells the storage hook. */
  function Clear(m: Manager): (s: Step)
    ensures s.manager.token.None?
    ensures s.manager.refresher == m.refresher && s.manager.hasStorage == m.hasStorage
    ensures s.effects == (if m.hasStorage then [ClearToken] else [])
  {
    Step(m.(token := None), if m.hasStorage then [ClearToken] else [])
  }

  /** `loadFromStorage()`, with `stored` the value the hook's `loadToken`
      resolved to; without a storage hook nothing is asked and nothing changes. */
  function LoadFromStorage(m: Manager, stored: Option<Credential>): (s: Step)
    ensures m.hasStorage && stored.Some? ==> s.manager.token == stored
    ensures !m.hasStorage || stored.None? ==> s.manager == m
    ensures s.manager.refresher == m.refresher && s.manager.hasStorage == m.hasStorage
    ensures s.effects == (if m.hasStorage then [LoadToken] else [])
  {
    Step(if m.hasStorage && stored.Some? then m.(token := stored) else m,
         if m.hasStorage then [LoadToken] else [])
  }

  const NoCallbackMessage: string := "No refresh callback configured"
  const NoRefreshTokenMessage: string := "No refresh token available"

  /** `refreshToken()`. */
  function Refresh(m: Manager): (r: Result<Step, TokenError>)
    ensures m.refresher.None? ==> r == Failure(Refused(NewError(NoCallbackMessage, KindOnly(Auth))))
    ensures m.refresher.Some? && !HasRefreshToken(m) ==>
      r == Failure(Refused(NewError(NoRefreshTokenMessage, KindOnly(Auth))))
    ensures m.refresher.Some? && HasRefreshToken(m) ==>
      var rt := m.token.value.refreshToken.value;
      var out := m.refresher.value(rt);
      && (out.Failure? ==> r == Failure(CallbackFailed(out.error)))
      && (out.Success? ==>
            && r.Success?
            && r.value.manager == m.(token := Some(out.value))
            && r.value.effects == [CallRefresh(rt)] + (if m.hasStorage then [SaveToken(out.value)] else []))
  {
    if m.refresher.None? then
      Failure(Refused(NewError(NoCallbackMessage, KindOnly(Auth))))
    else if !HasRefreshToken(m) then
      Failure(Refused(NewError(NoRefreshTokenMessage, KindOnly(Auth))))
    else
      var rt := m.token.value.refreshToken.value;
      match m.refresher.value(rt)
      case Failure(reason) => Failure(CallbackFailed(reason))
      case Success(renewed) =>
        Success(Step(m.(token := Some(renewed)),
                     [CallRefresh(rt)] + (if m.hasStorage then [SaveToken(renewed)] else [])))
  }

  /** The number of calls to the refresh callback in an effect log. */
  function RefreshCalls(effects: seq<Effect>): nat {
    if |effects| == 0 then 0
    else (if effects[0].CallRefresh? then 1 else 0) + RefreshCalls(effects[1..])
  }

  /** `getAccessToken()`: refreshes first when the token is inside the
      refresh window and a refresh is possible, and otherwise returns the
      held access token even when it has expired. */
  function GetAccessToken(m: Manager, now: int): (r: Result<Fetch, TokenError>)
    ensures m.token.None? ==> r == Success(Fetch(m, None, []))
    ensures m.token.Some? && !(ShouldRefresh(m, now) && m.refresher.Some? && HasRefreshToken(m)) ==>
      r.Success? && r.value.accessToken == Some(m.token.value.accessToken)
      && r.value.manager == m && r.value.effects == []
    ensures m.token.Some? && ShouldRefresh(m, now) && m.refresher.Some? && HasRefreshToken(m) ==>
      var out := m.refresher.value(m.token.value.refreshToken.value);
      && (out.Failure? ==> r == Failure(CallbackFailed(out.error)))
      && (out.Success? ==>
            && r.Success?
            && r.value.accessToken == Some(out.value.accessToken)
            && r.value.manager == m.(token := Some(out.value))
            && r.value.effects == [CallRefresh(m.token.value.refreshToken.value)]
                                  + (if m.hasStorage then [SaveToken(out.value)] else [])
            && RefreshCalls(r.value.effects) == 1)
  {
    if m.token.None? then Success(Fetch(m, None, []))
    else if ShouldRefresh(m, now) && m.refresher.Some? && HasRefreshToken(m) then
      match Refresh(m)
      case Failure(e) => Failure(e)
      case Success(step) =>
        assert RefreshCalls(step.effects) == 1 by {
          var rest := step.effects[1..];
          assert rest == (if m.hasStorage then [SaveToken(step.manager.token.value)] else []);
          assert RefreshCalls(rest) == 0 by {
            if |rest| > 0 { assert rest[1..] == []; }
          }
        }
        Success(Fetch(step.manager, Some(step.manager.token.value.accessToken), step.effects))
    else Success(Fetch(m, Some(m.token.value.accessToken), []))
  }
}

module TokensFacts {
  import opened Wrappers
  import opened Tokens

  /** A bare token set at `t0` expires exactly one hour later and is due for
      refresh exactly five minutes before that; it carries no refresh token. */
  lemma BareTokenLifetime(s: string, hasStorage: bool, t0: int, now: int)
    ensures var m := Create(Some(Bare(s)), hasStorage, t0);
      && m.token.value.accessToken == s
      && (IsExpired(m, now) <==> now >= t0 + 3600000)
      && (ShouldRefresh(m, now) <==> now >= t0 + 3300000)
      && !HasRefreshToken(m)
  {
  }

  /** Without a credential the manager counts as expired but never wants a refresh. */
  lemma NoTokenWindows(m: Manager, now: int)
    requires m.token.None?
    ensures IsExpired(m, now) && !ShouldRefresh(m, now) && !HasRefreshToken(m)
  {
  }

  /** Both tests are inclusive at their boundaries: the expiry instant is
      expired, the instant five minutes before it is due for refresh, and one
      millisecond earlier is not. */
  lemma Boundaries(m: Manager)
    requires m.token.Some?
    ensures IsExpired(m, m.token.value.expiresAt)
    ensures !IsExpired(m, m.token.value.expiresAt - 1)
    ensures ShouldRefresh(m, m.token.value.expiresAt - 300000)
    ensures !ShouldRefresh(m, m.token.value.expiresAt - 300001)
  {
  }

  /** Expiry and refresh-due only ever switch on as time passes, and a held
      token is due for refresh no later than it expires. */
  lemma WindowsAreMonotone(m: Manager, t1: int, t2: int)
    requires t1 <= t2
    ensures m.token.Some? && IsExpired(m, t1) ==> IsExpired(m, t2)
    ensures ShouldRefresh(m, t1) ==> ShouldRefresh(m, t2)
    ensures m.token.Some? && IsExpired(m, t1) ==> ShouldRefresh(m, t1)
  {
  }

  /** Whatever `setToken` stores is what `getToken` reads back. */
  lemma SetThenGet(m: Manager, input: TokenInput, now: int)
    ensures GetToken(SetToken(m, input, now).manager) == Some(Normalize(input, now))
    ensures input.Bare? ==> GetToken(SetToken(m, input, now).manager).value.accessToken == input.token
  {
  }

  /** After `clear` there is nothing to hand out and nothing to refresh. */
  lemma ClearForgets(m: Manager, now: int)
    ensures var c := Clear(m).manager;
      && GetToken(c).None?
      && IsExpired(c, now) && !ShouldRefresh(c, now) && !HasRefreshToken(c)
      && GetAccessToken(c, now) == Success(Fetch(c, None, []))
  {
  }

  /** A refresh that succeeds replaces the credential wholesale with the
      callback's result, and asks the callback exactly once. */
  lemma RefreshReplaces(m: Manager)
    requires Refresh(m).Success?
    ensures m.refresher.Some? && HasRefreshToken(m)
    ensures var rt := m.token.value.refreshToken.value;
      && m.refresher.value(rt).Success?
      && Refresh(m).value.manager.token == Some(m.refresher.value(rt).value)
      && RefreshCalls(Refresh(m).value.effects) == 1
  {
    var rest := Refresh(m).value.effects[1..];
    assert RefreshCalls(rest) == 0 by {
      if |rest| > 0 { assert rest[1..] == []; }
    }
  }

  /** A refresh is refused exactly when there is no callback or no refresh token. */
  lemma RefreshRefusal(m: Manager)
    ensures (Refresh(m).Failure? && Refresh(m).error.Refused?) <==> (m.refresher.None? || !HasRefreshToken(m))
    ensures Refresh(m).Failure? && Refresh(m).error.Refused? ==> Refresh(m).error.error.kind == Errors.Auth
  {
  }

  /** A fresh token is handed out as it is, without any call to the callback. */
  lemma FreshTokenNeedsNoRefresh(m: Manager, now: int)
    requires m.token.Some? && !ShouldRefresh(m, now)
    ensures GetAccessToken(m, now) == Success(Fetch(m, Some(m.token.value.accessToken), []))
  {
  }

  /** What `setToken` hands to the storage hook is, once cleared and loaded
      back, exactly the credential `getToken` returned before the clear. */
  lemma StorageRoundTrip(m: Manager, input: TokenInput, now: int)
    requires m.hasStorage
    ensures var saving := SetToken(m, input, now);
      && |saving.effects| == 1 && saving.effects[0].SaveToken?
      && var saved := saving.effects[0].token;
         var cleared := Clear(saving.manager);
         && cleared.effects == [ClearToken]
         && GetToken(LoadFromStorage(cleared.manager, Some(saved)).manager) == GetToken(saving.manager)
  {
  }

  /** Loading nothing, or having no storage hook, never loses the held credential. */
  lemma LoadKeepsWhenNothingStored(m: Manager, stored: Option<Credential>)
    requires !m.hasStorage || stored.None?
    ensures GetToken(LoadFromStorage(m, stored).manager) == GetToken(m)
  {
  }

  /** The callback registered last is the one a refresh asks. */
  lemma RefreshUsesCallback(m: Manager, callback: Refresher)
    requires HasRefreshToken(m)
    ensures var rt := m.token.value.refreshToken.value;
      var r := Refresh(SetRefreshCallback(m, callback));
      && (callback(rt).Success? ==> r.Success? && r.value.manager.token == Some(callback(rt).value))
      && (callback(rt).Failure? ==> r == Failure(CallbackFailed(callback(rt).error)))
  {
  }
}

=== FILE: Transport.dfy ===
/** The HTTP client's pure decisions: configuration defaults, the outbound
    credential injection, the inbound envelope unwrap and rate-limit
    bookkeeping, and the error conversion and retry decision on failure.
    The underlying transport is a function from the attempt number to a
    response or a failure. */
module Transport {
  import opened Wrappers
  import opened Json
  import opened Errors
  import Tokens
  import Text

  const DefaultBaseUrl: string := "https://www.swcombine.com/ws/v2.0/"
  const DefaultTimeoutMs: int := 30000
  const DefaultMaxRetries: int := 3

  /** Constructor options; an absent option takes its default. */
  datatype ClientOptions = ClientOptions(
    baseURL: Option<string>,
    timeout: Option<int>,
    maxRetries: Option<int>,
    hasRateLimitCallback: bool)

  datatype Settings = Settings(baseURL: string, timeout: int, maxRetries: int)

  function Configure(o: ClientOptions): (s: Settings)
    ensures o.baseURL.None? ==> s.baseURL == "https://www.swcombine.com/ws/v2.0/"
    ensures o.baseURL.Some? ==> s.baseURL == o.baseURL.value
    ensures o.timeout.None? ==> s.timeout == 30000
    ensures o.timeout.Some? ==> s.timeout == o.timeout.value
    ensures o.maxRetries.Some? ==> s.maxRetries == o.maxRetries.value
  {
    Settings(o.baseURL.GetOr(DefaultBaseUrl), o.timeout.GetOr(DefaultTimeoutMs), o.maxRetries.GetOr(DefaultMaxRetries))
  }

  datatype RateLimitInfo = RateLimitInfo(limit: int, remaining: int, reset: int, resetTime: Option<string>)

  /** The client's state between calls. */
  datatype Client = Client(
    settings: Settings,
    manager: Option<Tokens.Manager>,
    rateLimit: Option<RateLimitInfo>,
    hasRateLimitCallback: bool)

  /** `new HttpClient(options, tokenManager?)`. */
  function NewClient(o: ClientOptions, manager: Option<Tokens.Manager>): (c: Client)
    ensures c.settings == Configure(o) && c.manager == manager
    ensures c.rateLimit.None?
    ensures c.hasRateLimitCallback == o.hasRateLimitCallback
  {
    Client(Configure(o), manager, None, o.hasRateLimitCallback)
  }

  function SetTokenManager(c: Client, m: Tokens.Manager): (c': Client)
    ensures c'.manager == Some(m) && c'.rateLimit == c.rateLimit && c'.settings == c.settings
    ensures c'.hasRateLimitCallback == c.hasRateLimitCallback
  {
    c.(manager := Some(m))
  }

  function SetRateLimitCallback(c: Client): (c': Client)
    ensures c'.hasRateLimitCallback && c'.rateLimit == c.rateLimit && c'.manager == c.manager
    ensures c'.settings == c.settings
  {
    c.(hasRateLimitCallback := true)
  }

  /** `getRateLimitInfo()`: the last snapshot a response announced, or null. */
  function GetRateLimitInfo(c: Client): (r: Option<RateLimitInfo>)
    ensures forall resp: Response ::
      (OnFulfilled(c, resp).client.rateLimit == (if ParseRateLimit(resp.headers).Some? then ParseRateLimit(resp.headers) else r))
  {
    c.rateLimit
  }

  // ---------------------------------------------------------------------
  // Outbound: credential injection

  type Params = map<string, Json>

  const AccessTokenParam: string := "access_token"

  /** Adds `access_token` to the query parameters, creating them when
      absent, when a non-empty token is at hand. */
  function InjectToken(params: Option<Params>, token: Option<string>): (p: Params)
    ensures Filled(token) ==> AccessTokenParam in p && p[AccessTokenParam] == JStr(token.value)
    ensures !Filled(token) ==> p == params.GetOr(map[])
    ensures forall k :: k != AccessTokenParam ==> (k in p <==> params.Some? && k in params.value)
    ensures forall k :: k != AccessTokenParam && k in p ==> p[k] == params.value[k]
  {
    var base := params.GetOr(map[]);
    if Filled(token) then base[AccessTokenParam := JStr(token.value)] else base
  }

  /** The client after the outbound step (its manager possibly refreshed),
      the parameters sent, and the calls the manager made. */
  datatype Outbound = Outbound(client: Client, params: Params, effects: seq<Tokens.Effect>)

  /** The request interceptor: asks the client's token manager, if any, for
      an access token (which may refresh it), keeps the manager it leaves
      behind, and injects the token it yields. */
  function PrepareRequest(c: Client, now: int, params: Option<Params>): (r: Result<Outbound, Tokens.TokenError>)
    ensures c.manager.None? ==> r == Success(Outbound(c, params.GetOr(map[]), []))
    ensures c.manager.Some? ==>
      var got := Tokens.GetAccessToken(c.manager.value, now);
      && (got.Failure? ==> r == Failure(got.error))
      && (got.Success? ==>
            && r.Success?
            && r.value.client == c.(manager := Some(got.value.manager))
            && r.value.effects == got.value.effects
            && r.value.params == InjectToken(params, got.value.accessToken)
            && (Filled(got.value.accessToken) ==>
                  AccessTokenParam in r.value.params
                  && r.value.params[AccessTokenParam] == JStr(got.value.accessToken.value)))
    ensures r.Success? && (params.None? || AccessTokenParam !in params.value) ==>
      (AccessTokenParam in r.value.params <==>
         c.manager.Some? && Filled(Tokens.GetAccessToken(c.manager.value, now).value.accessToken))
    ensures r.Success? ==> forall k :: k != AccessTokenParam ==>
      (k in r.value.params <==> params.Some? && k in params.value)
    ensures r.Success? ==> forall k :: k != AccessTokenParam && k in r.value.params ==>
      r.value.params[k] == params.value[k]
  {
    match c.manager
    case None => Success(Outbound(c, params.GetOr(map[]), []))
    case Some(m) =>
      match Tokens.GetAccessToken(m, now)
      case Failure(e) => Failure(e)
      case Success(fetch) =>
        Success(Outbound(c.(manager := Some(fetch.manager)), InjectToken(params, fetch.accessToken), fetch.effects))
  }

  // ---------------------------------------------------------------------
  // Inbound: envelope unwrap

  const EnvelopeKey: string := "swcapi"

  /** The shape of a response body with respect to the `swcapi` envelope. */
  datatype Envelope =
    | NoEnvelope
    | SingleKey(key: string, value: Json)
    | MultiKey(inner: map<string, Json>)

  /** The only key of a one-entry map. */
  function OnlyKey(m: map<string, Json>): (k: string)
    requires |m| == 1
    ensures k in m && m == map[k := m[k]]
  {
    var k :| k in m;
    SingletonKeys(m, k);
    k
  }

  lemma SingletonKeys(m: map<string, Json>, k: string)
    requires |m| == 1 && k in m
    ensures m.Keys == {k}
  {
    var rest := m.Keys - {k};
    assert m.Keys == {k} + rest;
    assert |rest| == 0;
  }

  function Inspect(body: Json): (e: Envelope)
    ensures e.NoEnvelope? <==> !(Field(body, EnvelopeKey).Some? && Field(body, EnvelopeKey).value.JObj?)
    ensures e.SingleKey? ==> Field(body, EnvelopeKey) == Some(JObj(map[e.key := e.value]))
    ensures e.MultiKey? ==> Field(body, EnvelopeKey) == Some(JObj(e.inner)) && |e.inner| != 1
  {
    match Field(body, EnvelopeKey)
    case Some(JObj(inner)) =>
      if |inner| == 1 then var k := OnlyKey(inner); SingleKey(k, inner[k]) else MultiKey(inner)
    case _ => NoEnvelope
  }

  /** Drops one `swcapi` level: a single inner key yields its value, several
      (or none) yield the inner object, and a body without an object under
      `swcapi` is returned as it is. */
  function Unwrap(body: Json): (r: Json)
    ensures Field(body, EnvelopeKey).None? ==> r == body
    ensures (&& (forall k, v :: Field(body, EnvelopeKey) != Some(JObj(map[k := v])))
             && Field(body, EnvelopeKey).Some? && Field(body, EnvelopeKey).value.JObj?)
            ==> r == Field(body, EnvelopeKey).value
    ensures forall k, v :: Field(body, EnvelopeKey) == Some(JObj(map[k := v])) ==> r == v
  {
    match Inspect(body)
    case NoEnvelope => body
    case SingleKey(_, v) => v
    case MultiKey(inner) => JObj(inner)
  }

  // ---------------------------------------------------------------------
  // Inbound: rate-limit headers

  /** Response headers, with names already lower-cased by the transport. */
  type Headers = map<string, string>

  const LimitHeader: string := "x-ratelimit-limit"
  const RemainingHeader: string := "x-ratelimit-remaining"
  const ResetHeader: string := "x-ratelimit-reset"
  const ResetTimeHeader: string := "x-ratelimit-resettime"

  function Header(h: Headers, name: string): Option<string> {
    if name in h then Some(h[name]) else None
  }

  function HeaderInt(h: Headers, name: string): Option<int> {
    if name in h then Text.ParseInt(h[name]) else None
  }

  /** The snapshot carried by a response's headers, if it carries one. */
  function ParseRateLimit(h: Headers): (r: Option<RateLimitInfo>)
    ensures r.Some? <==> (&& LimitHeader in h && RemainingHeader in h && ResetHeader in h
                          && Text.ParseInt(h[LimitHeader]).Some? && Text.ParseInt(h[RemainingHeader]).Some?
                          && Text.ParseInt(h[ResetHeader]).Some?)
    ensures r.Some? ==>
      && Text.ParseInt(h[LimitHeader]) == Some(r.value.limit)
      && Text.ParseInt(h[RemainingHeader]) == Some(r.value.remaining)
      && Text.ParseInt(h[ResetHeader]) == Some(r.value.reset)
      && (r.value.resetTime.Some? <==> ResetTimeHeader in h)
      && (r.value.resetTime.Some? ==> r.value.resetTime.value == h[ResetTimeHeader])
  {
    match (HeaderInt(h, LimitHeader), HeaderInt(h, RemainingHeader), HeaderInt(h, ResetHeader))
    case (Some(limit), Some(remaining), Some(reset)) =>
      Some(RateLimitInfo(limit, remaining, reset, Header(h, ResetTimeHeader)))
    case _ => None
  }

  /** The headers a server would send to announce a snapshot. */
  function RateLimitHeaders(info: RateLimitInfo): (h: Headers)
    ensures LimitHeader in h && RemainingHeader in h && ResetHeader in h
    ensures ResetTimeHeader in h <==> info.resetTime.Some?
  {
    var numeric := map[LimitHeader := Text.FormatInt(info.limit),
                       RemainingHeader := Text.FormatInt(info.remaining),
                       ResetHeader := Text.FormatInt(info.reset)];
    match info.resetTime
    case Some(t) => numeric[ResetTimeHeader := t]
    case None => numeric
  }

  datatype Response = Response(data: Json, headers: Headers)

  /** The client after a response, the body handed to the caller, and the
      snapshots passed to the rate-limit callback. */
  datatype Received = Received(client: Client, data: Json, notified: seq<RateLimitInfo>)

  /** The response interceptor's success path. */
  function OnFulfilled(c: Client, resp: Response): (r: Received)
    ensures r.data == Unwrap(resp.data)
    ensures ParseRateLimit(resp.headers).None? ==> r.client == c && r.notified == []
    ensures ParseRateLimit(resp.headers).Some? ==>
      && r.client == c.(rateLimit := ParseRateLimit(resp.headers))
      && r.notified == (if c.hasRateLimitCallback then [ParseRateLimit(resp.headers).value] else [])
  {
    match ParseRateLimit(resp.headers)
    case None => Received(c, Unwrap(resp.data), [])
    case Some(info) =>
      Received(c.(rateLimit := Some(info)), Unwrap(resp.data), if c.hasRateLimitCallback then [info] else [])
  }

  // ---------------------------------------------------------------------
  // Inbound: failures and retries

  /** A failed attempt: an HTTP error response, or no response at all. */
  datatype AttemptFailure = HttpFailure(status: int, body: Json) | NoResponse(reason: string)

  function ToError(f: AttemptFailure): (e: SWCError)
    ensures f.NoResponse? ==> e.kind == Network && e.retryable
    ensures f.HttpFailure? ==> e.kind == Classify(f.status, f.body) && e.statusCode == Some(f.status)
  {
    match f
    case HttpFailure(status, body) => FromHttpResponse(status, body, None)
    case NoResponse(reason) => FromNetworkError(reason)
  }

  /** The retry policy: a retryable error, with retries left in the budget. */
  predicate ShouldRetry(e: SWCError, retryCount: nat, maxRetries: int)
    ensures ShouldRetry(e, retryCount, maxRetries) <==> e.retryable && Budget(retryCount, maxRetries) > 0
  {
    e.retryable && retryCount < maxRetries
  }

  datatype Verdict = RetryAs(retryCount: nat) | Reject(error: SWCError)

  /** The response interceptor's failure path, given the attempt's retry count. */
  function OnRejected(maxRetries: int, f: AttemptFailure, retryCount: nat): (v: Verdict)
    ensures v.RetryAs? <==> ToError(f).retryable && retryCount < maxRetries
    ensures v.RetryAs? ==> v.retryCount == retryCount + 1
    ensures v.Reject? ==> v.error == ToError(f)
  {
    var e := ToError(f);
    if ShouldRetry(e, retryCount, maxRetries) then RetryAs(retryCount + 1) else Reject(e)
  }

  function Budget(retryCount: nat, maxRetries: int): nat {
    if retryCount < maxRetries then maxRetries - retryCount else 0
  }

  /** How a logical request ended and how many attempts it took. */
  datatype Outcome = Outcome(result: Result<Response, SWCError>, attempts: nat)

  /** Attempt `k` failed in a way the policy retries. */
  predicate RetriedAt(send: nat -> Result<Response, AttemptFailure>, k: nat, maxRetries: int) {
    send(k).Failure? && ShouldRetry(ToError(send(k).error), k, maxRetries)
  }

  /** Sends, and on a failure the policy allows, sends again with the retry
      count one higher, until a response arrives or the policy rejects.
      Every attempt but the last was retried, and the outcome is the last
      attempt's response or its classified failure, which the policy declines. */
  function Execute(send: nat -> Result<Response, AttemptFailure>, retryCount: nat, maxRetries: int): (o: Outcome)
    ensures 1 <= o.attempts <= Budget(retryCount, maxRetries) + 1
    ensures o.result.Failure? ==>
      !o.result.error.retryable || retryCount + o.attempts - 1 >= maxRetries
    ensures send(retryCount).Success? ==> o == Outcome(Success(send(retryCount).value), 1)
    ensures forall k :: retryCount <= k < retryCount + o.attempts - 1 ==> RetriedAt(send, k, maxRetries)
    ensures var last := retryCount + o.attempts - 1;
      && (o.result.Success? ==> send(last) == Success(o.result.value))
      && (o.result.Failure? ==>
            && send(last).Failure?
            && o.result.error == ToError(send(last).error)
            && !ShouldRetry(o.result.error, last, maxRetries))
    decreases Budget(retryCount, maxRetries)
  {
    match send(retryCount)
    case Success(resp) => Outcome(Success(resp), 1)
    case Failure(f) =>
      match OnRejected(maxRetries, f, retryCount)
      case Reject(e) => Outcome(Failure(e), 1)
      case RetryAs(next) =>
        var o := Execute(send, next, maxRetries);
        Outcome(o.result, o.attempts + 1)
  }

  /** A logical request through the client: the first attempt has retry
      count zero, and the client's configured `maxRetries` bounds the rest. */
  function Send(c: Client, send: nat -> Result<Response, AttemptFailure>): (o: Outcome)
    ensures 1 <= o.attempts
    ensures c.settings.maxRetries >= 0 ==> o.attempts <= c.settings.maxRetries + 1
    ensures c.settings.maxRetries <= 0 ==> o.attempts == 1
    ensures forall k :: 0 <= k < o.attempts - 1 ==> RetriedAt(send, k, c.settings.maxRetries)
    ensures var last := o.attempts - 1;
      && (o.result.Success? ==> send(last) == Success(o.result.value))
      && (o.result.Failure? ==>
            && send(last).Failure?
            && o.result.error == ToError(send(last).error)
            && !ShouldRetry(o.result.error, last, c.settings.maxRetries))
  {
    Execute(send, 0, c.settings.maxRetries)
  }
}

module TransportFacts {
  import opened Wrappers
  import opened Json
  import opened Errors
  import opened Transport
  import Tokens
  import Text
  import TokensFacts

  function Wrap(inner: map<string, Json>): Json {
    JObj(map[EnvelopeKey := JObj(inner)])
  }

  /** An envelope with a single inner key unwraps to that key's value. */
  lemma UnwrapSingle(k: string, v: Json)
    ensures Unwrap(Wrap(map[k := v])) == v
  {
  }

  /** An envelope with several inner keys (or none) unwraps to the inner object. */
  lemma UnwrapMulti(inner: map<string, Json>)
    requires |inner| != 1
    ensures Unwrap(Wrap(inner)) == JObj(inner)
  {
  }

  /** A body with no envelope, or anything but an object under `swcapi`, passes through. */
  lemma UnwrapPassThrough(body: Json)
    requires !(body.JObj? && EnvelopeKey in body.fields && body.fields[EnvelopeKey].JObj?)
    ensures Unwrap(body) == body
  {
  }

  /** Every snapshot survives being announced in headers and parsed back. */
  lemma {:induction false} RateLimitRoundTrip(info: RateLimitInfo)
    ensures ParseRateLimit(RateLimitHeaders(info)) == Some(info)
  {
    var h := RateLimitHeaders(info);
    assert h[LimitHeader] == Text.FormatInt(info.limit);
    assert h[RemainingHeader] == Text.FormatInt(info.remaining);
    assert h[ResetHeader] == Text.FormatInt(info.reset);
    Text.ParseFormat(info.limit);
    Text.ParseFormat(info.remaining);
    Text.ParseFormat(info.reset);
    assert HeaderInt(h, LimitHeader) == Some(info.limit);
    assert HeaderInt(h, RemainingHeader) == Some(info.remaining);
    assert HeaderInt(h, ResetHeader) == Some(info.reset);
  }

  /** No snapshot is known before the first rate-limited response; such a
      response installs its snapshot and reports it once to a registered
      callback, and a response without the headers keeps the previous one. */
  lemma RateLimitBookkeeping(o: ClientOptions, manager: Option<Tokens.Manager>, data: Json, info: RateLimitInfo, other: Response)
    requires ParseRateLimit(other.headers).None?
    ensures GetRateLimitInfo(NewClient(o, manager)).None?
    ensures var r := OnFulfilled(NewClient(o, manager), Response(data, RateLimitHeaders(info)));
      && GetRateLimitInfo(r.client) == Some(info)
      && r.notified == (if o.hasRateLimitCallback then [info] else [])
      && GetRateLimitInfo(OnFulfilled(r.client, other).client) == Some(info)
  {
    RateLimitRoundTrip(info);
  }

  /** An attempt that fails in a way the policy does not retry rejects at
      once with the classified error, whatever the budget. */
  lemma NonRetryableRejectsAtOnce(send: nat -> Result<Response, AttemptFailure>, retryCount: nat, maxRetries: int)
    requires send(retryCount).Failure? && !ToError(send(retryCount).error).retryable
    ensures Execute(send, retryCount, maxRetries) == Outcome(Failure(ToError(send(retryCount).error)), 1)
  {
  }

  /** A 404 is rejected as `not_found` with its status, without a retry. */
  lemma NotFoundIsFinal(send: nat -> Result<Response, AttemptFailure>, body: Json, maxRetries: int)
    requires send(0) == Failure(HttpFailure(404, body))
    ensures Execute(send, 0, maxRetries).attempts == 1
    ensures Execute(send, 0, maxRetries).result.Failure?
    ensures Execute(send, 0, maxRetries).result.error.kind == NotFound
    ensures Execute(send, 0, maxRetries).result.error.statusCode == Some(404)
  {
  }

  /** When no response ever arrives, the request is sent once plus once per
      remaining retry, then rejected as a network error. */
  lemma {:induction false} NetworkFailureExhaustsBudget(send: nat -> Result<Response, AttemptFailure>, reason: string,
                                                        retryCount: nat, maxRetries: int)
    requires forall i :: send(i) == Failure(NoResponse(reason))
    ensures Execute(send, retryCount, maxRetries).attempts == Budget(retryCount, maxRetries) + 1
    ensures Execute(send, retryCount, maxRetries).result == Failure(FromNetworkError(reason))
    decreases Budget(retryCount, maxRetries)
  {
    if retryCount < maxRetries {
      NetworkFailureExhaustsBudget(send, reason, retryCount + 1, maxRetries);
    }
  }

  /** With every attempt failing for want of a response, a client sends a
      request once plus once per configured retry (three by default). */
  lemma ConfiguredRetries(o: ClientOptions, manager: Option<Tokens.Manager>,
                          send: nat -> Result<Response, AttemptFailure>, reason: string)
    requires forall i :: send(i) == Failure(NoResponse(reason))
    ensures var r := Send(NewClient(o, manager), send);
      && r.result == Failure(FromNetworkError(reason))
      && (o.maxRetries.None? ==> r.attempts == 4)
      && (o.maxRetries.Some? && o.maxRetries.value >= 0 ==> r.attempts == o.maxRetries.value + 1)
  {
    NetworkFailureExhaustsBudget(send, reason, 0, NewClient(o, manager).settings.maxRetries);
  }

  /** A manager holding a fresh token makes the request carry it as `access_token`. */
  lemma FreshTokenIsInjected(o: ClientOptions, token: string, now: int, params: Option<Params>)
    requires |token| > 0
    ensures var c := NewClient(o, Some(Tokens.Create(Some(Tokens.Bare(token)), false, now)));
      var r := PrepareRequest(c, now, params);
      && r.Success?
      && r.value.params[AccessTokenParam] == JStr(token)
      && r.value.client == c && r.value.effects == []
  {
  }

  /** Without a manager, or with one that holds nothing, no token is added. */
  lemma NoTokenNoParam(o: ClientOptions, now: int, hasStorage: bool, params: Option<Params>)
    requires params.None? || AccessTokenParam !in params.value
    ensures AccessTokenParam !in PrepareRequest(NewClient(o, None), now, params).value.params
    ensures AccessTokenParam !in PrepareRequest(NewClient(o, Some(Tokens.Create(None, hasStorage, now))), now, params).value.params
  {
  }

  /** A manager installed after construction is the one whose token the
      next request carries. */
  lemma LaterManagerIsUsed(c: Client, m: Tokens.Manager, now: int, params: Option<Params>)
    requires m.token.Some? && |m.token.value.accessToken| > 0 && !Tokens.ShouldRefresh(m, now)
    ensures var r := PrepareRequest(SetTokenManager(c, m), now, params);
      && r.Success?
      && r.value.params[AccessTokenParam] == JStr(m.token.value.accessToken)
      && r.value.client == SetTokenManager(c, m)
  {
    TokensFacts.FreshTokenNeedsNoRefresh(m, now);
  }

  /** A refresh made while preparing a request stays with the client: the
      request carries the renewed token, and the next request, while the
      renewed token is not due, carries it again without another refresh. */
  lemma RefreshIsKept(c: Client, now: int, params: Option<Params>)
    requires c.manager.Some? && c.manager.value.token.Some?
    requires var m := c.manager.value;
      && Tokens.ShouldRefresh(m, now) && m.refresher.Some? && Tokens.HasRefreshToken(m)
      && m.refresher.value(m.token.value.refreshToken.value).Success?
    requires var renewed := c.manager.value.refresher.value(c.manager.value.token.value.refreshToken.value).value;
      |renewed.accessToken| > 0 && now < renewed.expiresAt - Tokens.RefreshBufferMs
    ensures var renewed := c.manager.value.refresher.value(c.manager.value.token.value.refreshToken.value).value;
      var first := PrepareRequest(c, now, params);
      && first.Success?
      && first.value.params[AccessTokenParam] == JStr(renewed.accessToken)
      && Tokens.RefreshCalls(first.value.effects) == 1
      && first.value.client.manager.value.token == Some(renewed)
      && var second := PrepareRequest(first.value.client, now, params);
         && second.Success?
         && second.value.params[AccessTokenParam] == JStr(renewed.accessToken)
         && second.value.effects == []
  {
    var first := PrepareRequest(c, now, params);
    TokensFacts.FreshTokenNeedsNoRefresh(first.value.client.manager.value, now);
  }

  /** A callback registered after construction is told of the next snapshot once. */
  lemma LateCallbackNotified(c: Client, data: Json, info: RateLimitInfo)
    ensures var r := OnFulfilled(SetRateLimitCallback(c), Response(data, RateLimitHeaders(info)));
      && r.notified == [info]
      && GetRateLimitInfo(r.client) == Some(info)
  {
    RateLimitRoundTrip(info);
  }
}

=== FILE: Wrappers.dfy ===
/** Wrappers shared by every module of the model:
    `Option` stands for a value that may be `undefined`/`null`, and `Result`
    for an operation that either returns a value or rejects with an error. */
module Wrappers {

  datatype Option<+T> = None | Some(value: T) {

    /** The held value, or `default` when there is none (the `??` operator). */
    function GetOr(default: T): T {
      match this
      case Some(v) => v
      case None => default
    }
  }

  datatype Result<+R, +E> = Success(value: R) | Failure(error: E)
}
